=== FILE: README.md ===
# A Dafny model of the OCCAM `Model` class

OCCAM ("Organizational Complexity Computation And Modeling") does
reconstructability analysis. Its central object is a *model*: a set of
*relations* over the variables of a data set, kept as a list that is sorted by
the relation comparator. Alongside the list, a model caches things computed
from it:

- its print name and inverse name, such as `IV:AB:BC`;
- for state-based models, a *structure matrix* that says which joint states
  each state constraint covers;
- a fitted table and named attributes.

This project models the operations of `cpp/Model.cpp` and proves what they
promise:

- adding a relation, with or without normalisation (absorbing contained
  relations, rejecting redundant ones);
- copying relations, indexing, and the containment and equivalence tests;
- the canonical print name;
- enumerating the joint state space;
- matching packed constraint keys against states;
- building the structure matrix, and completing a state-based model.

## Modules

| file | module | what it holds |
|---|---|---|
| wrappers.dfy | `Wrappers` | `Option`, `Result` |
| relations.dfy | `Relations` | variables, variable lists, relations, containment, the comparator's laws |
| relation_set.dfy | `RelationSet` | sorted insertion, absorption, antichains |
| models.dfy | `Models` | the model record and its operations |
| model_properties.dfy | `ModelProperties` | lemmas about adding, copying, containment, equivalence, names |
| print_name.dfy | `PrintName` | the print-name format and its token view |
| state_space.dfy | `StateSpace` | the mixed-radix state enumeration |
| key_layout.dfy, key_match.dfy | `KeyLayout`, `KeyMatch` | reading a key per variable; matching states |
| struct_matrix.dfy | `StructMatrix` | faults, the structure matrix, completing a model |
| as_written.dfy | `AsWritten` | the normalising scan exactly as its loop runs (see Findings) |

## Modelling decisions

- Values stand for objects:
  - Relations and models are immutable values, and operations return the new
    model.
  - Pointer identity of relations (`relations[i] == relation`) is value
    equality.
  - Model identity (`this == other`) is index equality in a sequence of
    models.
- The relation comparator `Relation::compare` is a parameter `cmp`.
  - Sortedness proofs assume `ValidComparator`: "compares strictly less" is
    asymmetric and transitive.
- The degrees-of-freedom computation for state-based models is a parameter
  `df` from a relation list to a real. This covers
  `ocDegreesOfFreedomStateBased`, the model cache and the `DF` attribute.
  - The tolerance `DBL_EPSILON` is the real 2^-52.
- Calls that print an error and `exit(1)` become a `Failure` carrying a
  `Fault`.
- `getIndicesFromKey` returns the sequence of matching state indices, not an
  array plus a counter.
- A state-based model's state space has size `Product(Cards(vars))`, the
  product of its variable cardinalities.
- `useInverse` is a boolean.

## Model

| member | source | states |
|---|---|---|
| Models.NewModel | cpp/Model.cpp:32-46 | a new model has no relations, no cached names, no matrix, no fitted table, empty attributes and zero sizes |
| Models.IsStateBased | cpp/Model.cpp:87-93 | true exactly when some relation of the list is state-based |
| Models.GetRelation | cpp/Model.cpp:347-349 | a relation exactly for indices below the count, and then the relation at that index |
| Models.Invalidate | cpp/Model.cpp:316-338 | every derived result is dropped, the relations and recorded sizes stay, and no stale name remains |
| Models.InsertRelation | cpp/Model.cpp:307-338 | one more relation; the members are the old ones plus the new one; nothing derived survives |
| Models.AddRelation | cpp/Model.cpp:277-339 | a missing relation or a redundant one under normalisation changes nothing; otherwise the new relation is present and every cache is dropped |
| ModelProperties.AddRelationPlacement | cpp/Model.cpp:307-315 | the new relation lands after every relation it is not below and before the first one it is below, in the list left after absorption |
| ModelProperties.AddRelationKeepsSorted | cpp/Model.cpp:277-315 | a list sorted by a lawful comparator stays sorted, on every path |
| ModelProperties.AddRelationAbsorbs | cpp/Model.cpp:288-300 | normalising into an antichain with no container present: exactly the contained relations leave, the count is old - removed + 1, and the result is an antichain |
| ModelProperties.AddRelationKeepsCoherent | cpp/Model.cpp:316-323 | the cached print and inverse names are never left describing a different list |
| ModelProperties.AddRelationContainsOld | cpp/Model.cpp:283-301 | after any normalising, non-state-based addition, including one to an empty model, the model contains the old model and the new relation |
| ModelProperties.AbsorbedStillContained | cpp/Model.cpp:293-298 | every relation removed by absorption is still covered by a relation of the new list |
| ModelProperties.GetRelationAfterInsert | cpp/Model.cpp:307-315 | indexing after plain insertion: earlier relations in place, the new one at its point, later ones shifted by one |
| ModelProperties.PlainAddIsInsert | cpp/Model.cpp:283-315 | without normalisation, adding is sorted insertion and nothing else |
| RelationSet.InsertionPoint | cpp/Model.cpp:307-310 | the first position whose relation the new one compares strictly below, or the end |
| RelationSet.InsertSorted | cpp/Model.cpp:311-315 | one longer, the same members plus the new relation, which sits at the insertion point |
| RelationSet.InsertSortedMultiset | cpp/Model.cpp:311-315 | insertion adds exactly one occurrence and loses none |
| RelationSet.InsertKeepsSorted | cpp/Model.cpp:307-315 | insertion at the insertion point keeps a sorted list sorted |
| RelationSet.Absorb | cpp/Model.cpp:293-298 | exactly the relations the new one does not contain survive, and the count drops by the number contained |
| RelationSet.AbsorbConcat | cpp/Model.cpp:293-298 | absorption works element by element: absorbing a concatenation absorbs each part, so the survivors keep their order |
| RelationSet.AbsorbKeepsSorted | cpp/Model.cpp:293-298 | removing relations keeps the list sorted |
| RelationSet.AbsorbKeepsAntichain | cpp/Model.cpp:293-298 | removing relations keeps an antichain |
| RelationSet.InsertKeepsAntichain | cpp/Model.cpp:307-315 | inserting a relation unrelated to every member keeps an antichain |
| Models.CopyRelations | cpp/Model.cpp:100-107 | the target grows by exactly the number of kept source relations, and afterwards holds exactly the target's relations and the kept ones |
| Models.Kept | cpp/Model.cpp:101-105 | the relation at every position other than the two skipped ones occurs in the result, every result element comes from the source, and the count is the number of positions less the skipped ones that lie in range |
| ModelProperties.KeptPositions | cpp/Model.cpp:100-107 | every unskipped source position lands at its rank (its index less the skipped positions below it); with the length, this fixes the kept list as exactly the unskipped relations in source order, repeated relations included |
| Models.InsertAll | cpp/Model.cpp:102-106 | each relation of the batch is added once: the count grows by the batch size, the members are the old ones plus the batch, and a non-empty batch leaves nothing derived |
| ModelProperties.AddRelationKeepsAntichain | cpp/Model.cpp:283-315 | normalising, non-state-based additions never leave one relation containing another in the list |
| ModelProperties.KeptAll | cpp/Model.cpp:102-105 | with no skipped position, every relation is kept, in order |
| ModelProperties.InsertAllInOrder | cpp/Model.cpp:102-106 | relations that already sort after the model are appended in the given order |
| ModelProperties.CopyRelationsSorted | cpp/Model.cpp:100-107 | copying a sorted model into an empty one reproduces its list less the skipped positions; with none skipped, exactly |
| ModelProperties.CopyRelationsMultiset | cpp/Model.cpp:100-107 | whatever the source order, the copy holds the target's relations plus the kept ones, with multiplicity |
| Models.WithRelation | cpp/Model.cpp:358-360 | the list the state-based test compares against: one longer than the model's, holding its relations and the new one |
| Models.ContainsRelation | cpp/Model.cpp:352-408 | a relation of the model is always contained; for non-state-based models, contained exactly when some relation is a superset |
| Models.ContainsModel | cpp/Model.cpp:410-417 | a model contains every model whose relations are all its own; between non-state-based models, containment holds exactly when each of the other's relations has a superset here |
| ModelProperties.ContainsModelReflexive | cpp/Model.cpp:410-417 | every model contains itself |
| ModelProperties.ContainsModelTransitive | cpp/Model.cpp:402-417 | among non-state-based models, containment is transitive |
| Models.IsEquivalentTo | cpp/Model.cpp:419-435 | a model is equivalent to itself; non-state-based models only to themselves |
| ModelProperties.IsEquivalentSymmetric | cpp/Model.cpp:419-435 | the test gives the same answer with its arguments swapped |
| Models.GetPrintName | cpp/Model.cpp:456-519 | the result is the model with only the asked-for slot set to the returned name (so a name already there comes back with the model unchanged), and over coherent caches the formatted name is returned |
| ModelProperties.GetPrintNameStable | cpp/Model.cpp:463-518 | asking again returns the same name and changes nothing |
| PrintName.FormatName | cpp/Model.cpp:463-509 | the name of a model: the relations rendered in order, with the directedness of the first relation's variable list (its meaning is stated by FormatNameIsJoin and the lemmas below) |
| PrintName.Render | cpp/Model.cpp:488-508 | the name as written after visiting the first relations: the prefix, then ':' and a name for each relation not skipped (see RenderIsJoin) |
| PrintName.RenderKeepsPrefix | cpp/Model.cpp:488-508 | names are only appended, so the written name always starts with its "IV" or "IVI" prefix |
| PrintName.LastIndOnly | cpp/Model.cpp:464-469 | the last independent-only position, or -1 when there is none |
| PrintName.ShownMembers | cpp/Model.cpp:497-501 | a relation is written out exactly when it is not skipped |
| PrintName.RenderIsJoin | cpp/Model.cpp:497-508 | writing names with ':' before each but the first builds the ':'-join of the tokens |
| PrintName.FormatNameIsJoin | cpp/Model.cpp:488-508 | the print name is the ':'-join of the prefix token and the shown names |
| PrintName.DirectedShowsIV | cpp/Model.cpp:466-499 | directed with an independent-only relation: first token "IV", one token per relation, all shown but the last independent-only one |
| PrintName.UndirectedFoldsSingles | cpp/Model.cpp:470-501 | undirected with two or more singles: first token "IVI", shown exactly the non-singles |
| PrintName.UndirectedLoneSingleShown | cpp/Model.cpp:480-508 | undirected with one single: no prefix, every relation shown in order |
| KeyLayout.DecodeField | cpp/Model.cpp:125-137 | one variable's entry: a wildcard when its mask bits are all set in its segment, otherwise the masked bits shifted down |
| KeyLayout.FieldRebuilds | cpp/Model.cpp:133-135 | for a mask with no bit below the shift, shifting the decoded bits back up restores the masked part of the segment, so decoding drops no bit of the field |
| KeyMatch.DecodeKey | cpp/Model.cpp:125-137 | one decoded entry per variable, in list order, each read from that variable's own segment |
| KeyMatch.Matches | cpp/Model.cpp:139-156 | a state matches when the key fixes some variable and the state agrees with every fixed value |
| KeyMatch.GetIndicesFromKey | cpp/Model.cpp:119-161 | the matching states in increasing order, each below the state count; an index is listed exactly when its state matches; a key that fixes nothing lists none |
| StateSpace.StepState | cpp/Model.cpp:253-271 | the carry walk resets the maximal digits from the right and bumps the first one that is not: the odometer successor of the row |
| StateSpace.NextState | cpp/Model.cpp:253-271 | one odometer step from row k gives row k + 1 |
| StateSpace.MakeStateSpaceArray | cpp/Model.cpp:235-274 | row k holds the mixed-radix digits of k; row 0 is all zeros; each row is the odometer successor of the one before; every entry is below its variable's cardinality and no two rows are alike |
| StateSpace.DigitsSuccessor | cpp/Model.cpp:253-271 | the digits of k + 1 are the odometer successor of the digits of k |
| StateSpace.ValueOfDigits | cpp/Model.cpp:242-272 | reading a row back as a number gives its index |
| StateSpace.DigitsOfValue | cpp/Model.cpp:242-272 | every in-range assignment is the row its value names |
| StateSpace.StateTableComplete | cpp/Model.cpp:235-274 | the full table lists every in-range assignment, each exactly once |
| StateSpace.TwoByThree | cpp/Model.cpp:235-274 | cardinalities 2 and 3 enumerate the six pairs with the last variable fastest |
| StructMatrix.FaultOf | cpp/Model.cpp:190-206 | no fault exactly for a non-empty constraint set with every key present; otherwise the reason, tagged with the relation |
| StructMatrix.FirstFault | cpp/Model.cpp:189-206 | none exactly when every relation is complete; otherwise the fault of the first incomplete relation |
| StructMatrix.FirstFaultStays | cpp/Model.cpp:189-206 | once a fault is met, later relations do not change which fault is reported |
| StructMatrix.MissingKeyFirst | cpp/Model.cpp:201-206 | the reported missing key is the first one |
| StructMatrix.ConstraintCount | cpp/Model.cpp:166-175 | the first pass's count: the sizes of the constraint sets of the relations, a relation without a set counting none |
| StructMatrix.ConstraintCountCovers | cpp/Model.cpp:166-175 | every relation's constraints are included in the count, and the count is zero exactly when no relation holds a constraint |
| StructMatrix.MatchRow | cpp/Model.cpp:207-211 | a 0/1 row over all states, 1 exactly at the states the key matches |
| StructMatrix.MakeStructMatrix | cpp/Model.cpp:164-216 | an existing matrix is kept; fails exactly on the first fault; otherwise one row per constraint plus a final all-ones row, every row as wide as the state space, counts recorded |
| StructMatrix.RowsShape | cpp/Model.cpp:177-180 | every constraint row spans all the states |
| StructMatrix.RowOfKey | cpp/Model.cpp:201-214 | key j of relation i is the row after the earlier relations' rows, and holds that key's match row |
| StructMatrix.MatrixEntry | cpp/Model.cpp:176-215 | a matrix entry is 1 exactly when the state matches that constraint's key; the last row is all ones |
| StructMatrix.WildcardKeyRow | cpp/Model.cpp:139-156 | a key that fixes no variable gives an all-zero row |
| StructMatrix.FixedKeyPinsOneState | cpp/Model.cpp:140-158 | over the full enumeration, a key fixing every variable matches exactly one state, the one its values name |
| StructMatrix.RowFromIndices | cpp/Model.cpp:209-211 | a zero row with 1 exactly at the listed states |
| StructMatrix.BuildBlock | cpp/Model.cpp:190-213 | one relation's rows, or its fault exactly when it is incomplete |
| StructMatrix.BuildRows | cpp/Model.cpp:187-215 | the loop reports the first fault, or builds exactly the rows the functional definition gives |
| StructMatrix.CompleteSbModel | cpp/Model.cpp:218-233 | no relations is a fault; an existing matrix is kept; it fails exactly when some relation is incomplete; on success the state space is the product of the cardinalities |
| StructMatrix.CompleteSbModelIdempotent | cpp/Model.cpp:218-233 | completing a completed model changes nothing |
| AsWritten.Scan | cpp/Model.cpp:288-300 | the scan stops early exactly when some relation contains the new one |
| AsWritten.ScanLength | cpp/Model.cpp:294-297 | the scan never lengthens the list |
| AsWritten.ScanWithoutContainer | cpp/Model.cpp:288-300 | with no container present, the scan removes exactly what absorption removes |
| AsWritten.ScanOnAntichain | cpp/Model.cpp:288-300 | on an antichain with a container present, the scan stops before removing anything |
| AsWritten.AddRelationAsWritten | cpp/Model.cpp:277-339 | the loop as written: equal to the corrected operation except in the normalising, non-state-based case; there, with a container present, the result is the model with only its list replaced by what the scan left (every cache and size kept), and without one it holds the new relation with nothing derived |
| AsWritten.ScanKeepsAll | cpp/Model.cpp:294-297 | a scan that removes nothing returns the list exactly as it was |
| AsWritten.AgreesWhenNothingRemoved | cpp/Model.cpp:288-300 | with a container present, the loop as written agrees with the corrected operation whenever it removed nothing, so they differ only after removals |
| AsWritten.AgreesOnAntichains | cpp/Model.cpp:283-301 | on an antichain, the operation as written equals the corrected one |
| AsWritten.AgreesWithoutContainer | cpp/Model.cpp:283-301 | when nothing contains the new relation, the two agree on every list |
| AsWritten.StaleNameAfterEarlyReturn | cpp/Model.cpp:288-300 | a coherent model that the loop as written leaves with a stale print name, where the corrected operation changes nothing |

## Left out

- Memory management is not modelled: allocation, `growStorage` and
  `maxRelationCount`, destructors, and `deleteStructMatrix`. Values replace
  arrays, so there is nothing to free or grow.
- `size`, `getRelations`, `getRelationCount`, the fit-table and attribute
  accessors, `printStructMatrix` and `dump` are left out. They are I/O or
  plain field access.
- `deleteRelationLinks` is left out; its body is empty.
- `getStructMatrix` (cpp/Model.cpp:535-542) is not a member of its own. It
  completes the model when no structure matrix exists yet, then reports the
  matrix and the two sizes. StructMatrix.CompleteSbModel models that
  completion, and an existing matrix is kept there, as in the source.
- The `hashNext`, `progenitor` and `ID` fields (cpp/Model.cpp:42-44) are not
  modelled. They are a cache chain link, a back pointer and an identifier
  that no modelled operation reads.
- Models.GetRelation: the index is a `nat`. The source takes an `int` and
  only checks it against the count (line 348), so a negative index reads
  outside the array; that undefined case is not modelled.
- `cpp/ReportPrintResiduals.cpp` is not part of this model. It is report
  output.
- The state-based branch of `containsRelation` has side effects that are not
  modelled:
  - completing models held in the cache;
  - storing the `DF` attribute;
  - looking models up in the cache by print name.

  Only its verdict is modelled. The degrees of freedom are a parameter, so
  the result depends only on the two relation lists.
- Models.AddRelation: in the state-based case the model promises less than
  the source does, because the containment test at line 285 changes the
  model it is asked about. When the `DF` attribute is not yet set and no
  cache entry is found:
  - `this->completeSbModel()` (line 391) builds the structure matrix and sets
    the state-space size and total constraint count;
  - the `DF` attribute is stored on the model (line 393);
  - with a cache, `this->getPrintName()` (line 381) fills the print-name slot;
  - `completeSbModel` can end the program (lines 219-222 and 192-205).

  So a redundant state-based addition under normalisation leaves the source's
  model with a new matrix and `DF` attribute, where the model returns it
  unchanged. After a non-redundant one, the source's recorded sizes are the
  ones that completion set, while Models.Invalidate keeps the model's
  earlier ones.
- KeyLayout.DecodeField: the mask and shift of each variable are taken as
  given, and the shift is a 32-bit value below 32. How the variable list
  lays a value out in a key segment is not modelled; the bit-level layout
  belongs to the variable list, which is not part of this model.
  KeyLayout.FieldRebuilds states what decoding keeps of a field, for masks
  with no bit below the shift.
- StructMatrix.CompleteSbModel: the state count is the exact product of the
  cardinalities. The source computes `(int) ocDegreesOfFreedom(varList) + 1`,
  which equals that product for a plain variable list. Its floating-point
  evaluation and `int` truncation are not modelled.
- StructMatrix.CompleteSbModel: the structure matrix is built from the
  variable list of the first relation, as in the source. It requires
  (`Completable`) every key to fit that list and every cardinality to be
  positive. The source relies on both without checking.
- Models.GetPrintName and Models.IsEquivalentTo: both require a non-empty
  relation list wherever a name is formatted, because the source reads
  `relations[0]` there unconditionally.
- Models.GetPrintName: the buffer-length computation of the first loop is
  not modelled. It only sizes the buffer; the name is what the second loop
  writes.
- Models.GetPrintName: `useInverse` values other than 0 and 1 are not
  modelled. For such a value the guard at line 463 tests the print-name slot.
  The name it then builds is stored in the inverse-name slot (lines 510-513),
  and the inverse-name slot is returned (lines 515-518). So when the print
  name is already set, nothing is built and the result can be NULL.
- Models.Invalidate: replacing the attribute list with a fresh empty one is
  modelled as the empty map.
- KeyMatch.GetIndicesFromKey and StructMatrix.WildcardKeyRow: a key that
  wildcards every variable matches no state. `not_a_match`
  (cpp/Model.cpp:139-156) stays -1 for such a key, so no index is listed and
  its row of the structure matrix stays all zero. The model follows the code.

## Findings

| source | as written | input that shows it | evidently intended | confidence | as-written member | corrected member |
|---|---|---|---|---|---|---|
| cpp/Model.cpp:288-300 | The normalising, non-state-based loop removes each relation the new one contains as it meets it. When it later meets a relation that contains the new one, it returns at once. The removals stay, but the print name, inverse name and structure matrix are not dropped. | A model holding {0} and {0,1,2}, with cached print name `A:B`. Add {0,1} with normalisation. {0} is removed, then {0,1,2} contains {0,1} and the call returns. The model now holds only {0,1,2} but still reports `A:B`. | A relation that some existing relation contains is redundant, so the model stays unchanged (the comment at lines 290-291), and cached names always describe the current list. | low: reachable only when the list is not an antichain (not executed) | AsWritten.AddRelationAsWritten, AsWritten.StaleNameAfterEarlyReturn | Models.AddRelation, ModelProperties.AddRelationKeepsCoherent |

The corrected operation checks for a container before removing anything.
AsWritten.AgreesOnAntichains proves that the two versions agree on every list
in which no relation contains another. Normalised, non-state-based additions
keep that shape (ModelProperties.AddRelationKeepsAntichain).

=== FILE: as_written.dfy ===
/**
 * The normalising scan of a model's add-relation operation exactly as its loop
 * runs, kept beside the corrected `Models.AddRelation` to show where the two
 * part.  The loop removes the relations the new one contains as it meets
 * them, and may afterwards meet a relation that contains the new one; it then
 * returns at once, keeping the removals but not dropping the cached names.
 * On a list in which no relation contains another the two agree.
 */
module AsWritten {
  import opened Wrappers
  import opened Relations
  import opened RelationSet
  import opened PrintName
  import opened Models

  /**
   * The scan: `done` holds the relations kept so far and `rest` those not yet
   * visited.  The flag is true when the scan stopped at a relation containing
   * `r`; the list is then what the model holds at that moment.
   */
  function Scan(done: seq<Relation>, rest: seq<Relation>, r: Relation): (result: (seq<Relation>, bool))
    ensures result.1 <==> HasContainer(rest, r)
    decreases |rest|
  {
    if |rest| == 0 then (done, false)
    else
      assert HasContainer(rest, r) <==> Contains(rest[0], r) || HasContainer(rest[1..], r) by {
        if HasContainer(rest[1..], r) {
          var i :| 0 <= i < |rest[1..]| && Contains(rest[1..][i], r);
          assert rest[i + 1] == rest[1..][i];
        }
        if HasContainer(rest, r) && !Contains(rest[0], r) {
          var i :| 0 <= i < |rest| && Contains(rest[i], r);
          assert rest[1..][i - 1] == rest[i];
        }
      }
      if Contains(rest[0], r) then (done + rest, true)
      else if Contains(r, rest[0]) then Scan(done, rest[1..], r)
      else Scan(done + [rest[0]], rest[1..], r)
  }

  /**
   * The add-relation operation as written: identical to the corrected one
   * except in the normalising, non-state-based case, where the scan above
   * decides, and an early return keeps whatever the scan already removed.
   */
  function AddRelationAsWritten(m: Model, r: Option<Relation>, normalize: bool,
                                cmp: (Relation, Relation) -> int, df: seq<Relation> -> real): (m': Model)
    ensures r.None? ==> m' == m
    ensures r.Some? && !Absorbing(m, r.value, normalize) ==> m' == AddRelation(m, r, normalize, cmp, df)
    ensures r.Some? && Absorbing(m, r.value, normalize) && HasContainer(m.relations, r.value) ==>
      && |m'.relations| <= |m.relations|
      && m' == m.(relations := Scan([], m.relations, r.value).0)
    ensures r.Some? && Absorbing(m, r.value, normalize) && !HasContainer(m.relations, r.value) ==>
      r.value in m'.relations && NoDerivedState(m')
  {
    if r.None? then m
    else if Absorbing(m, r.value, normalize) then
      var (kept, found) := Scan([], m.relations, r.value);
      ScanLength([], m.relations, r.value);
      if found then m.(relations := kept)
      else
        var m' := InsertRelation(m.(relations := kept), r.value, cmp);
        assert m'.relations[InsertionPoint(kept, r.value, cmp)] == r.value;
        m'
    else AddRelation(m, r, normalize, cmp, df)
  }

  /** The scan never lengthens the list. */
  lemma {:induction false} ScanLength(done: seq<Relation>, rest: seq<Relation>, r: Relation)
    ensures |Scan(done, rest, r).0| <= |done| + |rest|
    decreases |rest|
  {
    if |rest| > 0 && !Contains(rest[0], r) {
      if Contains(r, rest[0]) {
        ScanLength(done, rest[1..], r);
      } else {
        ScanLength(done + [rest[0]], rest[1..], r);
      }
    }
  }

  /** A scan that removes nothing leaves the list exactly as it was. */
  lemma {:induction false} ScanKeepsAll(done: seq<Relation>, rest: seq<Relation>, r: Relation)
    requires |Scan(done, rest, r).0| == |done| + |rest|
    ensures Scan(done, rest, r).0 == done + rest
    decreases |rest|
  {
    if |rest| == 0 {
      assert done + [] == done;
    } else if !Contains(rest[0], r) {
      if Contains(r, rest[0]) {
        ScanLength(done, rest[1..], r);
      } else {
        ScanKeepsAll(done + [rest[0]], rest[1..], r);
        assert done + [rest[0]] + rest[1..] == done + rest;
      }
    }
  }

  /**
   * When a relation already contains the new one, the loop as written parts
   * from the corrected operation only by what it removed before stopping: if
   * it removed nothing, the two agree.
   */
  lemma AgreesWhenNothingRemoved(m: Model, r: Relation, normalize: bool,
                                 cmp: (Relation, Relation) -> int, df: seq<Relation> -> real)
    requires HasContainer(m.relations, r)
    requires |AddRelationAsWritten(m, Some(r), normalize, cmp, df).relations| == |m.relations|
    ensures AddRelationAsWritten(m, Some(r), normalize, cmp, df) == AddRelation(m, Some(r), normalize, cmp, df)
  {
    if Absorbing(m, r, normalize) {
      ScanKeepsAll([], m.relations, r);
      assert [] + m.relations == m.relations;
    }
  }

  /** With no container in the list, the scan removes exactly what absorption removes. */
  lemma {:induction false} ScanWithoutContainer(done: seq<Relation>, rest: seq<Relation>, r: Relation)
    requires !HasContainer(rest, r)
    ensures Scan(done, rest, r) == (done + Absorb(rest, r), false)
    decreases |rest|
  {
    if |rest| == 0 {
      assert done + [] == done;
    } else {
      assert rest == [rest[0]] + rest[1..];
      assert !Contains(rest[0], r);
      if Contains(r, rest[0]) {
        ScanWithoutContainer(done, rest[1..], r);
      } else {
        ScanWithoutContainer(done + [rest[0]], rest[1..], r);
        assert done + [rest[0]] + Absorb(rest[1..], r) == done + ([rest[0]] + Absorb(rest[1..], r));
      }
    }
  }

  /**
   * In a list where no relation contains another, a relation containing `r`
   * rules out any relation that `r` contains, so the scan removes nothing
   * before it stops.
   */
  lemma {:induction false} ScanOnAntichain(done: seq<Relation>, rest: seq<Relation>, r: Relation)
    requires Antichain(rest)
    requires HasContainer(rest, r)
    ensures Scan(done, rest, r) == (done + rest, true)
    decreases |rest|
  {
    if !Contains(rest[0], r) {
      var j :| 0 <= j < |rest| && Contains(rest[j], r);
      assert j != 0;
      assert !Contains(rest[j], rest[0]);
      assert !Contains(r, rest[0]);
      assert rest == [rest[0]] + rest[1..];
      AntichainCons(rest[0], rest[1..]);
      assert rest[1..][j - 1] == rest[j];
      ScanOnAntichain(done + [rest[0]], rest[1..], r);
      assert done + [rest[0]] + rest[1..] == done + rest;
    }
  }

  /** On a list where no relation contains another, the loop as written and the corrected operation agree. */
  lemma AgreesOnAntichains(m: Model, r: Option<Relation>, normalize: bool,
                           cmp: (Relation, Relation) -> int, df: seq<Relation> -> real)
    requires Antichain(m.relations)
    ensures AddRelationAsWritten(m, r, normalize, cmp, df) == AddRelation(m, r, normalize, cmp, df)
  {
    if r.Some? && Absorbing(m, r.value, normalize) {
      if HasContainer(m.relations, r.value) {
        ScanOnAntichain([], m.relations, r.value);
        assert [] + m.relations == m.relations;
      } else {
        ScanWithoutContainer([], m.relations, r.value);
        assert [] + Absorb(m.relations, r.value) == Absorb(m.relations, r.value);
      }
    }
  }

  /** When no relation contains the new one, the two agree on every list. */
  lemma AgreesWithoutContainer(m: Model, r: Relation, normalize: bool,
                               cmp: (Relation, Relation) -> int, df: seq<Relation> -> real)
    requires !HasContainer(m.relations, r)
    ensures AddRelationAsWritten(m, Some(r), normalize, cmp, df) == AddRelation(m, Some(r), normalize, cmp, df)
  {
    if Absorbing(m, r, normalize) {
      ScanWithoutContainer([], m.relations, r);
      assert [] + Absorb(m.relations, r) == Absorb(m.relations, r);
    }
  }

  // A small witness: relations over {0}, {0,1,2} and {0,1} of an undirected variable list.
  const ExampleVars := VariableList([], false)
  const SmallRel := Relation(ExampleVars, {0}, false, false, "A", "A", None)
  const LargeRel := Relation(ExampleVars, {0, 1, 2}, false, false, "B", "B", None)
  const MiddleRel := Relation(ExampleVars, {0, 1}, false, false, "AB", "AB", None)

  /** The print names of the witness lists: "A:B" for both relations, "B" for the larger alone. */
  lemma ExampleNames()
    ensures FormatName([SmallRel, LargeRel], false) == "A:B"
    ensures FormatName([LargeRel], false) == "B"
  {
    var ab := [SmallRel, LargeRel];
    assert IsSingle(SmallRel) && !IsSingle(LargeRel) by {
      assert |SmallRel.vars| == 1;
      assert LargeRel.vars == {0} + {1} + {2};
    }
    assert SingleCount(ab, 1) == 1 && SingleCount(ab, 2) == 1;
    assert Prefix(ab, false) == "";
    assert !Skipped(ab, false, 0) && !Skipped(ab, false, 1);
    assert Render(ab, false, false, 1) == AppendName("", "A") == "A";
    assert Render(ab, false, false, 2) == AppendName("A", "B") == "A:B";
    assert SingleCount([LargeRel], 1) == 0;
    assert Render([LargeRel], false, false, 1) == AppendName("", "B") == "B";
  }

  /** Scanning the witness list for the middle relation: the small one goes, then the large one stops the scan. */
  lemma ExampleScan()
    ensures Scan([], [SmallRel, LargeRel], MiddleRel) == ([LargeRel], true)
  {
    var ab := [SmallRel, LargeRel];
    assert Contains(MiddleRel, SmallRel) && !Contains(SmallRel, MiddleRel) && Contains(LargeRel, MiddleRel);
    assert ab[1..] == [LargeRel] && [] + [LargeRel] == [LargeRel];
    assert Scan([], [LargeRel], MiddleRel) == ([LargeRel], true);
  }

  /**
   * A model over {0} and {0,1,2} whose print name "A:B" is cached; adding
   * {0,1} with normalisation.  The loop as written removes {0}, then meets
   * {0,1,2}, which contains {0,1}, and returns: the model now holds only
   * {0,1,2} but still reports the name "A:B".  The corrected operation leaves
   * the model unchanged.
   */
  lemma StaleNameAfterEarlyReturn(cmp: (Relation, Relation) -> int, df: seq<Relation> -> real)
    ensures var m := Model([SmallRel, LargeRel], map[], None, None, 0, 0, Some("A:B"), None);
      var written := AddRelationAsWritten(m, Some(MiddleRel), true, cmp, df);
      && CachesCoherent(m)
      && written.relations == [LargeRel]
      && written.printName == Some("A:B")
      && !CachesCoherent(written)
      && AddRelation(m, Some(MiddleRel), true, cmp, df) == m
  {
    var m := Model([SmallRel, LargeRel], map[], None, None, 0, 0, Some("A:B"), None);
    ExampleNames();
    ExampleScan();
    assert HasContainer(m.relations, MiddleRel) by {
      assert Contains(m.relations[1], MiddleRel);
    }
  }
}

=== FILE: key_layout.dfy ===
/**
 * The layout of one variable's field inside a key segment: how a fixed value
 * or a wildcard is read out of it.
 */
module KeyLayout {
  import opened Wrappers
  import opened Relations

  /** A wildcard when all the variable's mask bits are set, otherwise the masked bits shifted down. */
  function DecodeField(word: bv32, v: Variable): Option<nat>
    requires v.shift < 32
  {
    if word & v.mask == v.mask then None else Some(FieldBits(word, v.mask, v.shift) as nat)
  }

  /** The bits of a segment under `mask`, shifted down by `shift` to start at bit 0. */
  function FieldBits(word: bv32, mask: bv32, shift: bv32): bv32
    requires shift < 32
  {
    (word & mask) >> shift
  }

  /** The mask has no bit below the shift, as a field's mask does. */
  predicate MaskAligned(mask: bv32, shift: bv32)
    requires shift < 32
  {
    (mask >> shift) << shift == mask
  }

  /**
   * Decoding loses nothing: shifting the field's bits back into place gives
   * exactly the masked part of the segment.
   */
  lemma FieldRebuilds(word: bv32, mask: bv32, shift: bv32)
    requires shift < 32
    requires MaskAligned(mask, shift)
    ensures FieldBits(word, mask, shift) << shift == word & mask
  {
  }
}

=== FILE: key_match.dfy ===
/**
 * Matching a packed constraint key against the enumerated states: the key is
 * decoded per variable into a wildcard or a value, and a state matches when it
 * agrees with every decoded value.
 */
module KeyMatch {
  import opened Wrappers
  import opened Relations
  import opened KeyLayout

  /** A decoded key: None for a wildcard ("don't care"), Some(v) for a fixed value. */
  type Pattern = seq<Option<nat>>

  /** Every variable's segment lies inside the key and its shift inside a segment. */
  predicate KeyFits(key: Key, vars: seq<Variable>) {
    forall i :: 0 <= i < |vars| ==> vars[i].segment < |key| && vars[i].shift < 32
  }

  /** One variable's entry, read from the key segment that holds it. */
  function DecodeVariable(key: Key, v: Variable): Option<nat>
    requires v.segment < |key| && v.shift < 32
  {
    DecodeField(key[v.segment], v)
  }

  /** The key decoded for every variable of the list, in list order. */
  function DecodeKey(key: Key, vars: seq<Variable>): (p: Pattern)
    requires KeyFits(key, vars)
    ensures |p| == |vars|
    ensures forall i :: 0 <= i < |vars| ==> p[i] == DecodeVariable(key, vars[i])
  {
    seq(|vars|, i requires 0 <= i < |vars| => DecodeVariable(key, vars[i]))
  }

  /** The pattern fixes no variable at all. */
  predicate AllWildcard(p: Pattern) {
    forall j :: 0 <= j < |p| ==> p[j].None?
  }

  /**
   * A state matches a pattern when the pattern fixes at least one variable and
   * the state agrees with every fixed value.  A pattern that fixes nothing
   * matches no state.
   */
  predicate Matches(state: seq<nat>, p: Pattern) {
    && (exists j :: 0 <= j < |p| && p[j].Some?)
    && forall j :: 0 <= j < |p| && p[j].Some? ==> j < |state| && state[j] == p[j].value
  }

  /**
   * The indices of the enumerated states that match the key, found as
   * `Model::getIndicesFromKey` does: for each state, scan the variables, skip wildcards, stop at
   * the first disagreement, and accept only when some fixed variable agreed
   * and none disagreed.
   */
  method GetIndicesFromKey(key: Key, vars: seq<Variable>, statespace: nat, states: seq<seq<nat>>)
    returns (indices: seq<nat>)
    requires KeyFits(key, vars)
    requires statespace <= |states|
    requires forall i :: 0 <= i < statespace ==> |states[i]| == |vars|
    ensures |indices| <= statespace
    ensures forall x :: 0 <= x < |indices| ==> indices[x] < statespace
    ensures forall x, y :: 0 <= x < y < |indices| ==> indices[x] < indices[y]
    ensures forall k :: 0 <= k < statespace ==> (k in indices <==> Matches(states[k], DecodeKey(key, vars)))
    ensures AllWildcard(DecodeKey(key, vars)) ==> indices == []
  {
    var pattern := DecodeKey(key, vars);
    indices := [];
    var i := 0;
    while i < statespace
      invariant 0 <= i <= statespace
      invariant |indices| <= i
      invariant forall x :: 0 <= x < |indices| ==> indices[x] < i
      invariant forall x, y :: 0 <= x < y < |indices| ==> indices[x] < indices[y]
      invariant forall k :: 0 <= k < i ==> (k in indices <==> Matches(states[k], pattern))
    {
      var notAMatch := -1;
      var j := 0;
      while j < |vars|
        invariant 0 <= j <= |vars|
        invariant notAMatch == -1 || notAMatch == 0
        invariant notAMatch == -1 <==> forall m :: 0 <= m < j ==> pattern[m].None?
        invariant forall m :: 0 <= m < j && pattern[m].Some? ==> states[i][m] == pattern[m].value
      {
        if pattern[j].None? {
          j := j + 1;
          continue;
        }
        if pattern[j].value != states[i][j] {
          notAMatch := 1;
          break;
        }
        notAMatch := 0;
        j := j + 1;
      }
      if notAMatch == 0 {
        indices := indices + [i];
      }
      i := i + 1;
    }
    assert |indices| > 0 ==> indices[0] in indices;
  }
}

=== FILE: model_properties.dfy ===
/**
 * What the model operations promise: the relation list stays sorted, a
 * redundant relation changes nothing, absorption keeps an antichain, caches
 * never describe a list they were not computed from, copying preserves order,
 * and the containment and equivalence tests behave as relations should.
 */
module ModelProperties {
  import opened Wrappers
  import opened Relations
  import opened RelationSet
  import opened Models

  /** The list `AddRelation` inserts into: after absorption when it absorbs, else the old list. */
  function KeptBefore(m: Model, r: Relation, normalize: bool): seq<Relation> {
    if Absorbing(m, r, normalize) then Absorb(m.relations, r) else m.relations
  }

  /**
   * A real insertion puts the new relation before the first relation it
   * compares strictly less than, and after all the others, in the list left
   * after absorption.
   */
  lemma AddRelationPlacement(m: Model, r: Relation, normalize: bool,
                             cmp: (Relation, Relation) -> int, df: seq<Relation> -> real)
    requires !Redundant(m, r, normalize, cmp, df)
    ensures var kept := KeptBefore(m, r, normalize);
      exists p :: 0 <= p <= |kept|
        && AddRelation(m, Some(r), normalize, cmp, df).relations == kept[..p] + [r] + kept[p..]
        && (forall k :: 0 <= k < p ==> !(cmp(r, kept[k]) < 0))
        && (p < |kept| ==> cmp(r, kept[p]) < 0)
  {
    var kept := KeptBefore(m, r, normalize);
    var p := InsertionPoint(kept, r, cmp);
    assert AddRelation(m, Some(r), normalize, cmp, df).relations == kept[..p] + [r] + kept[p..];
  }

  /** Adding a relation to a list sorted by a lawful comparator leaves it sorted. */
  lemma AddRelationKeepsSorted(m: Model, r: Option<Relation>, normalize: bool,
                               cmp: (Relation, Relation) -> int, df: seq<Relation> -> real)
    requires ValidComparator(cmp)
    requires Sorted(m.relations, cmp)
    ensures Sorted(AddRelation(m, r, normalize, cmp, df).relations, cmp)
  {
    if r.Some? && !Redundant(m, r.value, normalize, cmp, df) {
      var kept := KeptBefore(m, r.value, normalize);
      if Absorbing(m, r.value, normalize) {
        AbsorbKeepsSorted(m.relations, r.value, cmp);
      }
      InsertKeepsSorted(kept, r.value, cmp);
    }
  }

  /**
   * Normalising, non-state-based, into an antichain: when no relation contains
   * the new one, exactly the relations it contains are removed, the count
   * becomes old count - removed + 1, and the list is again an antichain.
   */
  lemma AddRelationAbsorbs(m: Model, r: Relation, cmp: (Relation, Relation) -> int, df: seq<Relation> -> real)
    requires |m.relations| > 0
    requires !IsStateBased(m.relations) && !r.stateBased
    requires Antichain(m.relations)
    requires !HasContainer(m.relations, r)
    ensures var m' := AddRelation(m, Some(r), true, cmp, df);
      && (forall x :: x in m'.relations <==> x == r || (x in m.relations && !Contains(r, x)))
      && |m'.relations| == |m.relations| - ContainedCount(m.relations, r) + 1
      && Antichain(m'.relations)
      && NoDerivedState(m')
  {
    var kept := Absorb(m.relations, r);
    AbsorbKeepsAntichain(m.relations, r);
    forall y | y in kept ensures !Contains(r, y) && !Contains(y, r) {
      var i :| 0 <= i < |m.relations| && m.relations[i] == y;
    }
    InsertKeepsAntichain(kept, r, cmp);
  }

  /**
   * Normalising, non-state-based additions keep a model an antichain: no
   * relation ends up containing another.
   */
  lemma AddRelationKeepsAntichain(m: Model, r: Relation, cmp: (Relation, Relation) -> int, df: seq<Relation> -> real)
    requires !IsStateBased(m.relations) && !r.stateBased
    requires Antichain(m.relations)
    ensures Antichain(AddRelation(m, Some(r), true, cmp, df).relations)
  {
    if |m.relations| == 0 {
      assert AddRelation(m, Some(r), true, cmp, df).relations == [r];
    } else if !HasContainer(m.relations, r) {
      AddRelationAbsorbs(m, r, cmp, df);
    }
  }

  /** Whatever the call does, the cached names never go stale. */
  lemma AddRelationKeepsCoherent(m: Model, r: Option<Relation>, normalize: bool,
                                 cmp: (Relation, Relation) -> int, df: seq<Relation> -> real)
    requires CachesCoherent(m)
    ensures CachesCoherent(AddRelation(m, r, normalize, cmp, df))
  {
  }

  /**
   * Normalising, non-state-based: the model after the call contains the model
   * before it, and contains the new relation.
   */
  lemma AddRelationContainsOld(m: Model, r: Relation, cmp: (Relation, Relation) -> int, df: seq<Relation> -> real)
    requires !IsStateBased(m.relations) && !r.stateBased
    ensures var m' := AddRelation(m, Some(r), true, cmp, df);
      ContainsModel(m', m, cmp, df) && ContainsRelation(m', r, cmp, df)
  {
    if |m.relations| == 0 {
      var m' := AddRelation(m, Some(r), true, cmp, df);
      assert m'.relations == InsertSorted([], r, cmp);
      assert m'.relations[0] == r;
      assert Contains(m'.relations[0], r);
    } else if HasContainer(m.relations, r) {
      ContainsModelReflexive(m, cmp, df);
    } else {
      var m' := AddRelation(m, Some(r), true, cmp, df);
      var kept := Absorb(m.relations, r);
      assert m'.relations == InsertSorted(kept, r, cmp);
      AbsorbedStillContained(m.relations, kept, m'.relations, r);
      var k := IndexOf(m'.relations, r);
      assert Contains(m'.relations[k], r);
    }
  }

  /**
   * After absorption and insertion, every old relation is still there or is
   * contained by the new one; so some relation of the new list contains it.
   */
  lemma AbsorbedStillContained(before: seq<Relation>, kept: seq<Relation>, t: seq<Relation>, r: Relation)
    requires kept == Absorb(before, r)
    requires forall x :: x in t <==> x == r || x in kept
    requires !IsStateBased(before) && !r.stateBased
    ensures !IsStateBased(t)
    ensures forall i :: 0 <= i < |before| ==> HasContainer(t, before[i])
  {
    forall k | 0 <= k < |t| ensures !t[k].stateBased {
      assert t[k] in t;
      if t[k] != r {
        var j := IndexOf(before, t[k]);
      }
    }
    forall i | 0 <= i < |before| ensures HasContainer(t, before[i]) {
      var x := before[i];
      var holder := if x in t then x else r;
      var k := IndexOf(t, holder);
      assert Contains(t[k], x);
    }
  }

  /**
   * Indexing after a plain insertion: the new relation at its insertion
   * point, the earlier relations where they were, the later ones one further on.
   */
  lemma GetRelationAfterInsert(m: Model, r: Relation, k: nat,
                               cmp: (Relation, Relation) -> int, df: seq<Relation> -> real)
    ensures var m' := AddRelation(m, Some(r), false, cmp, df);
      var p := InsertionPoint(m.relations, r, cmp);
      GetRelation(m', k) ==
        if k < p then GetRelation(m, k)
        else if k == p then Some(r)
        else GetRelation(m, k - 1)
  {
    if k <= |m.relations| {
      InsertSortedAt(m.relations, r, cmp, k);
    }
  }

  /** A relation of a sorted list compares strictly less than no earlier relation. */
  lemma InsertAtEnd(s: seq<Relation>, r: Relation, cmp: (Relation, Relation) -> int)
    requires forall k :: 0 <= k < |s| ==> !(cmp(r, s[k]) < 0)
    ensures InsertSorted(s, r, cmp) == s + [r]
  {
    var p := InsertionPoint(s, r, cmp);
    assert p == |s|;
    assert s[..p] == s && s[p..] == [];
  }

  /**
   * Relations that already sort after everything in the model are appended in
   * the order given.
   */
  lemma {:induction false} InsertAllInOrder(m: Model, rs: seq<Relation>, cmp: (Relation, Relation) -> int)
    requires Sorted(m.relations + rs, cmp)
    ensures InsertAll(m, rs, cmp).relations == m.relations + rs
    decreases |rs|
  {
    var s := m.relations;
    if |rs| == 0 {
      assert s + rs == s;
    } else {
      var x := rs[0];
      forall k | 0 <= k < |s| ensures !(cmp(x, s[k]) < 0) {
        assert (s + rs)[k] == s[k] && (s + rs)[|s|] == x;
      }
      InsertAtEnd(s, x, cmp);
      var m' := InsertRelation(m, x, cmp);
      assert m'.relations + rs[1..] == s + rs;
      InsertAllInOrder(m', rs[1..], cmp);
    }
  }

  /** A sorted batch inserted into an empty model comes out as it went in. */
  lemma InsertAllIntoEmpty(m: Model, rs: seq<Relation>, cmp: (Relation, Relation) -> int)
    requires m.relations == []
    requires Sorted(rs, cmp)
    ensures InsertAll(m, rs, cmp).relations == rs
  {
    assert m.relations + rs == rs;
    InsertAllInOrder(m, rs, cmp);
  }

  /** Inserting a batch adds each of its relations once and loses none. */
  lemma {:induction false} InsertAllMultiset(m: Model, rs: seq<Relation>, cmp: (Relation, Relation) -> int)
    ensures multiset(InsertAll(m, rs, cmp).relations) == multiset(m.relations) + multiset(rs)
    decreases |rs|
  {
    if |rs| > 0 {
      var m' := InsertRelation(m, rs[0], cmp);
      InsertRelationMultiset(m, rs[0], cmp);
      InsertAllMultiset(m', rs[1..], cmp);
      HeadTailMultiset(rs);
    }
  }

  /** A non-empty sequence holds its head once more than its tail. */
  lemma HeadTailMultiset(rs: seq<Relation>)
    requires |rs| > 0
    ensures multiset(rs) == multiset{rs[0]} + multiset(rs[1..])
  {
    assert rs == [rs[0]] + rs[1..];
  }

  /** Insertion into a model adds exactly one occurrence of the relation and loses none. */
  lemma InsertRelationMultiset(m: Model, r: Relation, cmp: (Relation, Relation) -> int)
    ensures multiset(InsertRelation(m, r, cmp).relations) == multiset(m.relations) + multiset{r}
  {
    InsertSortedMultiset(m.relations, r, cmp);
  }

  /** One more source position: its relation is appended unless the position is skipped. */
  lemma KeptStep(src: seq<Relation>, skip1: int, skip2: int, n: nat)
    requires 0 < n <= |src|
    ensures skip1 != n - 1 && skip2 != n - 1 ==>
      Kept(src, skip1, skip2, n) == Kept(src, skip1, skip2, n - 1) + [src[n - 1]]
    ensures skip1 == n - 1 || skip2 == n - 1 ==>
      Kept(src, skip1, skip2, n) == Kept(src, skip1, skip2, n - 1)
  {
    var before := Kept(src, skip1, skip2, n - 1);
    assert before + [] == before;
  }

  /** The relations kept from a sorted source are sorted. */
  lemma {:induction false} KeptSorted(src: seq<Relation>, skip1: int, skip2: int, cmp: (Relation, Relation) -> int, n: nat)
    requires n <= |src|
    requires Sorted(src, cmp)
    ensures Sorted(Kept(src, skip1, skip2, n), cmp)
  {
    if n > 0 {
      var k: nat := n - 1;
      KeptSorted(src, skip1, skip2, cmp, k);
      KeptStep(src, skip1, skip2, n);
      if skip1 != k && skip2 != k {
        KeptNotAbove(src, skip1, skip2, cmp, k);
        SortedSnoc(Kept(src, skip1, skip2, k), src[k], cmp);
      }
    }
  }

  /** In a sorted source, the relation at position `n` compares strictly less than nothing kept before it. */
  lemma KeptNotAbove(src: seq<Relation>, skip1: int, skip2: int, cmp: (Relation, Relation) -> int, n: nat)
    requires n < |src|
    requires Sorted(src, cmp)
    ensures forall k :: 0 <= k < |Kept(src, skip1, skip2, n)| ==> !(cmp(src[n], Kept(src, skip1, skip2, n)[k]) < 0)
  {
    var before := Kept(src, skip1, skip2, n);
    forall k | 0 <= k < |before| ensures !(cmp(src[n], before[k]) < 0) {
      assert before[k] in before;
      var j :| 0 <= j < n && src[..n][j] == before[k];
      assert src[j] == before[k];
    }
  }

  /**
   * Copying a sorted model into an empty one reproduces its relations in the
   * same order, less the skipped positions; with nothing skipped, exactly.
   */
  lemma CopyRelationsSorted(target: Model, src: Model, skip1: int, skip2: int, cmp: (Relation, Relation) -> int)
    requires target.relations == []
    requires Sorted(src.relations, cmp)
    ensures CopyRelations(target, src, skip1, skip2, cmp).relations == Kept(src.relations, skip1, skip2, |src.relations|)
    ensures skip1 < 0 && skip2 < 0 ==> CopyRelations(target, src, skip1, skip2, cmp).relations == src.relations
  {
    KeptSorted(src.relations, skip1, skip2, cmp, |src.relations|);
    InsertAllIntoEmpty(target, Kept(src.relations, skip1, skip2, |src.relations|), cmp);
    if skip1 < 0 && skip2 < 0 {
      KeptAll(src.relations, skip1, skip2, |src.relations|);
    }
  }

  /** Whatever the order of the source, the copy holds the target's relations and the kept ones, with multiplicity. */
  lemma CopyRelationsMultiset(target: Model, src: Model, skip1: int, skip2: int, cmp: (Relation, Relation) -> int)
    ensures multiset(CopyRelations(target, src, skip1, skip2, cmp).relations)
      == multiset(target.relations) + multiset(Kept(src.relations, skip1, skip2, |src.relations|))
  {
    InsertAllMultiset(target, Kept(src.relations, skip1, skip2, |src.relations|), cmp);
  }

  /** Copying goes through the plain, non-normalising add: that add is exactly an insertion. */
  lemma PlainAddIsInsert(m: Model, r: Relation, cmp: (Relation, Relation) -> int, df: seq<Relation> -> real)
    ensures AddRelation(m, Some(r), false, cmp, df) == InsertRelation(m, r, cmp)
  {
  }

  /**
   * Every unskipped source position lands at its rank. With the length that
   * `Kept` ensures, this fixes the kept list: the unskipped positions in
   * source order, so with repeated relations only the skipped copies go.
   */
  lemma {:induction false} KeptPositions(src: seq<Relation>, skip1: int, skip2: int, n: nat)
    requires n <= |src|
    ensures forall i :: 0 <= i < n && i != skip1 && i != skip2 ==>
      Rank(skip1, skip2, i) < |Kept(src, skip1, skip2, n)| && Kept(src, skip1, skip2, n)[Rank(skip1, skip2, i)] == src[i]
  {
    if n > 0 {
      var k: nat := n - 1;
      KeptPositions(src, skip1, skip2, k);
      KeptStep(src, skip1, skip2, n);
    }
  }

  /** With no position skipped, the kept prefix is the whole prefix. */
  lemma {:induction false} KeptAll(src: seq<Relation>, skip1: int, skip2: int, n: nat)
    requires n <= |src|
    requires skip1 < 0 && skip2 < 0
    ensures Kept(src, skip1, skip2, n) == src[..n]
  {
    if n > 0 {
      var k: nat := n - 1;
      KeptAll(src, skip1, skip2, k);
      assert src[..n] == src[..k] + [src[k]];
    }
  }

  /** Every model contains itself, state-based or not. */
  lemma ContainsModelReflexive(m: Model, cmp: (Relation, Relation) -> int, df: seq<Relation> -> real)
    ensures ContainsModel(m, m, cmp, df)
  {
    forall i | 0 <= i < |m.relations| ensures ContainsRelation(m, m.relations[i], cmp, df) {
      assert m.relations[i] in m.relations;
    }
  }

  /** Among non-state-based models, containment is transitive. */
  lemma ContainsModelTransitive(a: Model, b: Model, c: Model, cmp: (Relation, Relation) -> int, df: seq<Relation> -> real)
    requires !IsStateBased(a.relations) && !IsStateBased(b.relations) && !IsStateBased(c.relations)
    requires ContainsModel(a, b, cmp, df) && ContainsModel(b, c, cmp, df)
    ensures ContainsModel(a, c, cmp, df)
  {
    forall i | 0 <= i < |c.relations| ensures ContainsRelation(a, c.relations[i], cmp, df) {
      var x := c.relations[i];
      assert !x.stateBased;
      assert HasContainer(b.relations, x);
      var j :| 0 <= j < |b.relations| && Contains(b.relations[j], x);
      var y := b.relations[j];
      assert !y.stateBased;
      assert HasContainer(a.relations, y);
      var k :| 0 <= k < |a.relations| && Contains(a.relations[k], y);
      assert Contains(a.relations[k], x);
    }
  }

  /** Equivalence does not depend on the order of the two models. */
  lemma IsEquivalentSymmetric(arena: seq<Model>, a: nat, b: nat,
                              cmp: (Relation, Relation) -> int, df: seq<Relation> -> real)
    requires a < |arena| && b < |arena|
    requires IsStateBased(arena[a].relations) || IsStateBased(arena[b].relations) ==>
      |arena[a].relations| > 0 && |arena[b].relations| > 0
    ensures IsEquivalentTo(arena, a, b, cmp, df) == IsEquivalentTo(arena, b, a, cmp, df)
  {
  }

  /** Asking for the same name again returns the same string and changes nothing. */
  lemma GetPrintNameStable(m: Model, inverse: bool)
    requires |m.relations| > 0
    ensures var (name, m') := GetPrintName(m, inverse);
      GetPrintName(m', inverse) == (name, m')
  {
  }
}

=== FILE: models.dfy ===
/**
 * A model: a sorted list of relations plus the results derived from it (print
 * names, structure matrix, fitted table, attributes), and the operations that
 * maintain the list.
 */
module Models {
  import opened Wrappers
  import opened Relations
  import opened RelationSet
  import opened PrintName

  /** A fitted table; its contents are not part of this model. */
  type Table = seq<real>

  datatype Model = Model(
    relations: seq<Relation>,
    attributes: map<string, real>,
    fitTable: Option<Table>,
    structMatrix: Option<seq<seq<int>>>,
    stateSpaceSize: int,
    totalConstraints: int,
    printName: Option<string>,
    inverseName: Option<string>)

  /** Nothing has been derived from the relations yet. */
  predicate NoDerivedState(m: Model) {
    && m.printName.None?
    && m.inverseName.None?
    && m.structMatrix.None?
    && m.fitTable.None?
    && m.attributes == map[]
  }

  /** A fresh model: no relations, nothing derived. */
  function NewModel(): (m: Model)
    ensures m.relations == [] && NoDerivedState(m)
    ensures m.stateSpaceSize == 0 && m.totalConstraints == 0
  {
    Model([], map[], None, None, 0, 0, None, None)
  }

  /** The cached names, when present, are the names of the current relations. */
  predicate CachesCoherent(m: Model) {
    && (m.printName.Some? ==> |m.relations| > 0 && m.printName.value == FormatName(m.relations, false))
    && (m.inverseName.Some? ==> |m.relations| > 0 && m.inverseName.value == FormatName(m.relations, true))
  }

  /** Drop every derived result; the sizes recorded with the old matrix are left as they were. */
  function Invalidate(m: Model): (m': Model)
    ensures NoDerivedState(m') && CachesCoherent(m')
    ensures m'.relations == m.relations
    ensures m'.stateSpaceSize == m.stateSpaceSize && m'.totalConstraints == m.totalConstraints
  {
    m.(printName := None, inverseName := None, structMatrix := None, fitTable := None, attributes := map[])
  }

  /** Some relation of the list is state-based, found by scanning in order. */
  function IsStateBased(rels: seq<Relation>): (b: bool)
    ensures b <==> exists i :: 0 <= i < |rels| && rels[i].stateBased
  {
    if |rels| == 0 then false
    else if rels[0].stateBased then true
    else
      assert forall i :: 1 <= i < |rels| ==> rels[i] == rels[1..][i - 1];
      IsStateBased(rels[1..])
  }

  /** The relation at index `i`, or None past the end. */
  function GetRelation(m: Model, i: nat): (r: Option<Relation>)
    ensures r.Some? <==> i < |m.relations|
    ensures i < |m.relations| ==> r == Some(m.relations[i])
  {
    if i < |m.relations| then Some(m.relations[i]) else None
  }

  /** Insertion without normalisation: place `r` at its insertion point and drop everything derived. */
  function InsertRelation(m: Model, r: Relation, cmp: (Relation, Relation) -> int): (m': Model)
    ensures |m'.relations| == |m.relations| + 1
    ensures forall x :: x in m'.relations <==> x == r || x in m.relations
    ensures NoDerivedState(m')
  {
    Invalidate(m.(relations := InsertSorted(m.relations, r, cmp)))
  }

  /** The double-precision machine epsilon, 2^-52. */
  const Epsilon: real := 1.0 / 4503599627370496.0

  function Abs(x: real): real {
    if x < 0.0 then -x else x
  }

  /**
   * The model's relations with `r` added without normalisation, as the
   * state-based containment test builds them: a copy of the model, then `r`.
   */
  function WithRelation(m: Model, r: Relation, cmp: (Relation, Relation) -> int): (w: seq<Relation>)
    ensures |w| == |m.relations| + 1
    ensures forall x :: x in w <==> x == r || x in m.relations
  {
    InsertRelation(CopyRelations(NewModel(), m, -1, -1, cmp), r, cmp).relations
  }

  /**
   * Whether the model already accounts for `r`.  When either side is
   * state-based: `r` is one of the relations, or adding it leaves the degrees
   * of freedom `df` unchanged to within machine epsilon.  Otherwise: some
   * relation contains `r`.
   */
  function ContainsRelation(m: Model, r: Relation, cmp: (Relation, Relation) -> int, df: seq<Relation> -> real): (b: bool)
    ensures r in m.relations ==> b
    ensures !(IsStateBased(m.relations) || r.stateBased) ==> (b <==> HasContainer(m.relations, r))
  {
    if IsStateBased(m.relations) || r.stateBased then
      r in m.relations || Abs(df(m.relations) - df(WithRelation(m, r, cmp))) < Epsilon
    else
      assert r in m.relations ==> Contains(m.relations[IndexOf(m.relations, r)], r);
      HasContainer(m.relations, r)
  }

  /** Every relation of `other` is accounted for by `m`. */
  function ContainsModel(m: Model, other: Model, cmp: (Relation, Relation) -> int, df: seq<Relation> -> real): (b: bool)
    ensures (forall x :: x in other.relations ==> x in m.relations) ==> b
    ensures !IsStateBased(m.relations) && !IsStateBased(other.relations) ==>
      (b <==> forall x :: x in other.relations ==> HasContainer(m.relations, x))
  {
    forall i :: 0 <= i < |other.relations| ==> ContainsRelation(m, other.relations[i], cmp, df)
  }

  // ---------------------------------------------------------------------------
  // Adding a relation
  // ---------------------------------------------------------------------------

  /** The call returns before inserting: the model already accounts for the new relation. */
  predicate Redundant(m: Model, r: Relation, normalize: bool, cmp: (Relation, Relation) -> int, df: seq<Relation> -> real) {
    && normalize
    && |m.relations| > 0
    && (if IsStateBased(m.relations) || r.stateBased then ContainsRelation(m, r, cmp, df)
        else HasContainer(m.relations, r))
  }

  /** The normalising, non-state-based case, where contained relations are absorbed. */
  predicate Absorbing(m: Model, r: Relation, normalize: bool) {
    normalize && |m.relations| > 0 && !(IsStateBased(m.relations) || r.stateBased)
  }

  /**
   * Add a relation.  A missing relation changes nothing.  Under `normalize`, a
   * relation the model already accounts for changes nothing; in the
   * non-state-based case the relations the new one contains are removed first.
   * The new relation then goes to its insertion point and everything derived
   * is dropped.
   */
  function AddRelation(m: Model, r: Option<Relation>, normalize: bool,
                       cmp: (Relation, Relation) -> int, df: seq<Relation> -> real): (m': Model)
    ensures r.None? ==> m' == m
    ensures r.Some? && Redundant(m, r.value, normalize, cmp, df) ==> m' == m
    ensures r.Some? && !Redundant(m, r.value, normalize, cmp, df) ==>
      r.value in m'.relations && NoDerivedState(m')
  {
    if r.None? then m
    else if Redundant(m, r.value, normalize, cmp, df) then m
    else
      var kept := if Absorbing(m, r.value, normalize) then Absorb(m.relations, r.value) else m.relations;
      var m' := InsertRelation(m.(relations := kept), r.value, cmp);
      assert m'.relations[InsertionPoint(kept, r.value, cmp)] == r.value;
      m'
  }

  /**
   * Copy the relations of `src` into `target` in order, without
   * normalisation, skipping the positions `skip1` and `skip2`: the kept
   * relations are added one after the other.
   */
  function CopyRelations(target: Model, src: Model, skip1: int, skip2: int,
                         cmp: (Relation, Relation) -> int): (m': Model)
    ensures |m'.relations| == |target.relations| + |Kept(src.relations, skip1, skip2, |src.relations|)|
    ensures forall x :: x in m'.relations <==> x in target.relations || x in Kept(src.relations, skip1, skip2, |src.relations|)
  {
    InsertAll(target, Kept(src.relations, skip1, skip2, |src.relations|), cmp)
  }

  /**
   * Where source position `i` lands among the kept relations: `i` less the
   * skipped positions below it.
   */
  function Rank(skip1: int, skip2: int, i: nat): nat
  {
    i - (if 0 <= skip1 < i then 1 else 0) - (if 0 <= skip2 < i && skip2 != skip1 then 1 else 0)
  }

  /** The first `n` relations of the source, less the two skipped positions. */
  function Kept(src: seq<Relation>, skip1: int, skip2: int, n: nat): (k: seq<Relation>)
    requires n <= |src|
    ensures forall y {:trigger y in k} :: y in k ==> y in src[..n]
    ensures forall i {:trigger src[i] in k} :: 0 <= i < n && i != skip1 && i != skip2 ==> src[i] in k
    ensures |k| == n - (if 0 <= skip1 < n then 1 else 0) - (if 0 <= skip2 < n && skip2 != skip1 then 1 else 0)
  {
    if n == 0 then []
    else
      var before := Kept(src, skip1, skip2, n - 1);
      assert forall y :: y in before ==> y in src[..n] by {
        assert forall y :: y in src[..n - 1] ==> y in src[..n];
      }
      before + (if skip1 != n - 1 && skip2 != n - 1 then [src[n - 1]] else [])
  }

  /** Insert the relations of `rs` one after the other; an empty `rs` leaves the model as it was. */
  function InsertAll(m: Model, rs: seq<Relation>, cmp: (Relation, Relation) -> int): (m': Model)
    ensures |m'.relations| == |m.relations| + |rs|
    ensures |rs| > 0 ==> NoDerivedState(m')
    ensures forall x :: x in m'.relations <==> x in m.relations || x in rs
    decreases |rs|
  {
    if |rs| == 0 then m else InsertAll(InsertRelation(m, rs[0], cmp), rs[1..], cmp)
  }

  /**
   * The print name (`inverse` false) or inverse name (`inverse` true),
   * computed and stored in its slot on first use, read from the slot after.
   */
  function GetPrintName(m: Model, inverse: bool): (result: (string, Model))
    requires |m.relations| > 0
    ensures var (name, m') := result;
      m' == if inverse then m.(inverseName := Some(name)) else m.(printName := Some(name))
    ensures CachesCoherent(m) ==> result.0 == FormatName(m.relations, inverse) && CachesCoherent(result.1)
    ensures var slot := if inverse then m.inverseName else m.printName;
      slot.Some? ==> result == (slot.value, m)
  {
    if inverse then
      if m.inverseName.Some? then (m.inverseName.value, m)
      else
        var name := FormatName(m.relations, true);
        (name, m.(inverseName := Some(name)))
    else
      if m.printName.Some? then (m.printName.value, m)
      else
        var name := FormatName(m.relations, false);
        (name, m.(printName := Some(name)))
  }

  /**
   * Whether two models of an arena are equivalent.  When either is
   * state-based: the same model, the same print name, or each contains the
   * other.  Otherwise only a model is equivalent to itself.
   */
  function IsEquivalentTo(arena: seq<Model>, a: nat, b: nat,
                          cmp: (Relation, Relation) -> int, df: seq<Relation> -> real): (e: bool)
    requires a < |arena| && b < |arena|
    requires IsStateBased(arena[a].relations) || IsStateBased(arena[b].relations) ==>
      |arena[a].relations| > 0 && |arena[b].relations| > 0
    ensures a == b ==> e
    ensures !IsStateBased(arena[a].relations) && !IsStateBased(arena[b].relations) ==> (e <==> a == b)
  {
    var ma := arena[a];
    var mb := arena[b];
    if IsStateBased(ma.relations) || IsStateBased(mb.relations) then
      || a == b
      || GetPrintName(ma, false).0 == GetPrintName(mb, false).0
      || (ContainsModel(ma, mb, cmp, df) && ContainsModel(mb, ma, cmp, df))
    else
      a == b
  }
}

=== FILE: print_name.dfy ===
/**
 * The canonical print name of a model: its relations' names joined with ':'.
 * A directed model shows its independent-only relation as a leading "IV"; an
 * undirected model with two or more single-variable, non-state-based
 * relations shows them all as one leading "IVI".  A lone such relation is
 * shown under its own name.
 */
module PrintName {
  import opened Relations

  /** A relation over one variable that is not state-based: what an undirected model folds into "IVI". */
  predicate IsSingle(r: Relation) {
    VariableCount(r) == 1 && !r.stateBased
  }

  /** How many of the first `n` relations are singles. */
  function SingleCount(rels: seq<Relation>, n: nat): (c: nat)
    requires n <= |rels|
    ensures c <= n
  {
    if n == 0 then 0 else SingleCount(rels, n - 1) + (if IsSingle(rels[n - 1]) then 1 else 0)
  }

  /** The position of the last independent-only relation, or -1 when there is none. */
  function LastIndOnly(rels: seq<Relation>, n: nat): (k: int)
    requires n <= |rels|
    ensures -1 <= k < n
    ensures k >= 0 ==> rels[k].indOnly
    ensures forall i :: k < i < n ==> !rels[i].indOnly
  {
    if n == 0 then -1
    else if rels[n - 1].indOnly then n - 1
    else LastIndOnly(rels, n - 1)
  }

  /** What the name starts with, before any relation is written. */
  function Prefix(rels: seq<Relation>, directed: bool): string {
    if directed && LastIndOnly(rels, |rels|) >= 0 then "IV"
    else if !directed && SingleCount(rels, |rels|) > 1 then "IVI"
    else ""
  }

  /** Relation `i` is not written out: it is the independent-only relation, or it is folded into "IVI". */
  predicate Skipped(rels: seq<Relation>, directed: bool, i: nat)
    requires i < |rels|
  {
    || (directed && i == LastIndOnly(rels, |rels|))
    || (!directed && SingleCount(rels, |rels|) > 1 && IsSingle(rels[i]))
  }

  /** Writing one more name: a ':' first unless nothing has been written yet. */
  function AppendName(acc: string, name: string): string {
    (if |acc| > 0 then acc + ":" else acc) + name
  }

  /** The name as it stands after the first `n` relations have been visited. */
  function Render(rels: seq<Relation>, directed: bool, inverse: bool, n: nat): string
    requires n <= |rels|
  {
    if n == 0 then Prefix(rels, directed)
    else
      var acc := Render(rels, directed, inverse, n - 1);
      if Skipped(rels, directed, n - 1) then acc
      else AppendName(acc, RelationName(rels[n - 1], inverse))
  }

  /** Names are only ever appended: whatever has been written starts with the prefix. */
  lemma {:induction false} RenderKeepsPrefix(rels: seq<Relation>, directed: bool, inverse: bool, n: nat)
    requires n <= |rels|
    ensures Prefix(rels, directed) <= Render(rels, directed, inverse, n)
  {
    if n > 0 {
      RenderKeepsPrefix(rels, directed, inverse, n - 1);
    }
  }

  /** The print name (or, with `inverse`, the inverse name) of a model with these relations. */
  function FormatName(rels: seq<Relation>, inverse: bool): string
    requires |rels| > 0
  {
    Render(rels, rels[0].varList.directed, inverse, |rels|)
  }

  // ---------------------------------------------------------------------------
  // The reference reading: a ':'-join of the prefix and the shown relations.
  // ---------------------------------------------------------------------------

  /** Tokens joined with ':' between neighbours. */
  function Join(ts: seq<string>): string {
    if |ts| == 0 then ""
    else if |ts| == 1 then ts[0]
    else Join(ts[..|ts| - 1]) + ":" + ts[|ts| - 1]
  }

  /** The positions, among the first `n`, of the relations written out under their own names. */
  function Shown(rels: seq<Relation>, directed: bool, n: nat): (sh: seq<nat>)
    requires n <= |rels|
    ensures forall x :: 0 <= x < |sh| ==> sh[x] < n
    ensures forall x, y :: 0 <= x < y < |sh| ==> sh[x] < sh[y]
  {
    if n == 0 then []
    else Shown(rels, directed, n - 1) + (if Skipped(rels, directed, n - 1) then [] else [n - 1])
  }

  /** A position among the first `n` is shown exactly when it is not skipped. */
  lemma {:induction false} ShownMembers(rels: seq<Relation>, directed: bool, n: nat)
    requires n <= |rels|
    ensures forall i :: 0 <= i < n ==> (i in Shown(rels, directed, n) <==> !Skipped(rels, directed, i))
  {
    if n > 0 {
      ShownMembers(rels, directed, n - 1);
    }
  }

  /** The names at the given positions, in order. */
  function NamesAt(rels: seq<Relation>, inverse: bool, sh: seq<nat>): (ns: seq<string>)
    requires forall x :: 0 <= x < |sh| ==> sh[x] < |rels|
    ensures |ns| == |sh|
    ensures forall x :: 0 <= x < |sh| ==> ns[x] == RelationName(rels[sh[x]], inverse)
  {
    seq(|sh|, x requires 0 <= x < |sh| => RelationName(rels[sh[x]], inverse))
  }

  /** The prefix as a token of its own, when there is one. */
  function PrefixTokens(rels: seq<Relation>, directed: bool): seq<string> {
    if Prefix(rels, directed) == "" then [] else [Prefix(rels, directed)]
  }

  /** The names of the relations shown among the first `n`, in order. */
  function Names(rels: seq<Relation>, directed: bool, inverse: bool, n: nat): seq<string>
    requires n <= |rels|
  {
    if n == 0 then []
    else
      Names(rels, directed, inverse, n - 1) +
      (if Skipped(rels, directed, n - 1) then [] else [RelationName(rels[n - 1], inverse)])
  }

  /** Every token the name is made of, in order. */
  function Tokens(rels: seq<Relation>, directed: bool, inverse: bool, n: nat): seq<string>
    requires n <= |rels|
  {
    PrefixTokens(rels, directed) + Names(rels, directed, inverse, n)
  }

  /** The shown names are the names at the shown positions. */
  lemma {:induction false} NamesAreShown(rels: seq<Relation>, directed: bool, inverse: bool, n: nat)
    requires n <= |rels|
    ensures Names(rels, directed, inverse, n) == NamesAt(rels, inverse, Shown(rels, directed, n))
  {
    if n > 0 {
      NamesAreShown(rels, directed, inverse, n - 1);
      var sh := Shown(rels, directed, n - 1);
      if !Skipped(rels, directed, n - 1) {
        assert NamesAt(rels, inverse, sh + [n - 1]) ==
          NamesAt(rels, inverse, sh) + [RelationName(rels[n - 1], inverse)];
      }
    }
  }

  /** Every relation has a non-empty name of the kind asked for. */
  predicate NamesNonEmpty(rels: seq<Relation>, inverse: bool) {
    forall i :: 0 <= i < |rels| ==> |RelationName(rels[i], inverse)| > 0
  }

  /** A join of non-empty tokens is empty only when there are no tokens. */
  lemma {:induction false} JoinNonEmpty(ts: seq<string>)
    requires forall x :: 0 <= x < |ts| ==> |ts[x]| > 0
    ensures |Join(ts)| > 0 <==> |ts| > 0
  {
    if |ts| > 1 {
      JoinNonEmpty(ts[..|ts| - 1]);
    }
  }

  /** Joining one more token writes a ':' and the token, or just the token when there was nothing before. */
  lemma JoinSnoc(ts: seq<string>, t: string)
    ensures Join(ts + [t]) == if |ts| == 0 then t else Join(ts) + ":" + t
  {
    if |ts| > 0 {
      assert (ts + [t])[..|ts|] == ts;
    }
  }

  /** Visiting one more relation adds its name as the last token, unless it is skipped. */
  lemma TokensSnoc(rels: seq<Relation>, directed: bool, inverse: bool, n: nat)
    requires 0 < n <= |rels|
    ensures Tokens(rels, directed, inverse, n) ==
      Tokens(rels, directed, inverse, n - 1) +
      (if Skipped(rels, directed, n - 1) then [] else [RelationName(rels[n - 1], inverse)])
  {
    var pre := PrefixTokens(rels, directed);
    var ns := Names(rels, directed, inverse, n - 1);
    var tail := if Skipped(rels, directed, n - 1) then [] else [RelationName(rels[n - 1], inverse)];
    assert pre + (ns + tail) == (pre + ns) + tail;
  }

  /** With non-empty relation names, every token is non-empty. */
  lemma TokensNonEmpty(rels: seq<Relation>, directed: bool, inverse: bool, n: nat)
    requires n <= |rels|
    requires NamesNonEmpty(rels, inverse)
    ensures forall x :: 0 <= x < |Tokens(rels, directed, inverse, n)| ==> |Tokens(rels, directed, inverse, n)[x]| > 0
  {
    var pre := PrefixTokens(rels, directed);
    NamesAreShown(rels, directed, inverse, n);
    var ns := NamesAt(rels, inverse, Shown(rels, directed, n));
    assert forall x :: 0 <= x < |pre| ==> |pre[x]| > 0;
    assert forall x :: 0 <= x < |ns| ==> |ns[x]| > 0;
  }

  /**
   * Writing names one by one into the buffer, with a ':' before every name but
   * the first thing written, builds exactly the ':'-join of the tokens.
   */
  lemma {:induction false} RenderIsJoin(rels: seq<Relation>, directed: bool, inverse: bool, n: nat)
    requires n <= |rels|
    requires NamesNonEmpty(rels, inverse)
    ensures Render(rels, directed, inverse, n) == Join(Tokens(rels, directed, inverse, n))
  {
    if n == 0 {
      RenderBase(rels, directed, inverse);
    } else {
      RenderIsJoin(rels, directed, inverse, n - 1);
      RenderStep(rels, directed, inverse, n);
    }
  }

  /** Before any relation is visited, the name is the prefix and the tokens are the prefix token. */
  lemma RenderBase(rels: seq<Relation>, directed: bool, inverse: bool)
    ensures Render(rels, directed, inverse, 0) == Join(Tokens(rels, directed, inverse, 0))
  {
    var pre := PrefixTokens(rels, directed);
    assert Names(rels, directed, inverse, 0) == [];
    assert Tokens(rels, directed, inverse, 0) == pre + [] == pre;
  }

  /** One more relation visited: the name and the join of the tokens move in step. */
  lemma RenderStep(rels: seq<Relation>, directed: bool, inverse: bool, n: nat)
    requires 0 < n <= |rels|
    requires NamesNonEmpty(rels, inverse)
    requires Render(rels, directed, inverse, n - 1) == Join(Tokens(rels, directed, inverse, n - 1))
    ensures Render(rels, directed, inverse, n) == Join(Tokens(rels, directed, inverse, n))
  {
    var ts := Tokens(rels, directed, inverse, n - 1);
    TokensSnoc(rels, directed, inverse, n);
    if Skipped(rels, directed, n - 1) {
      assert ts + [] == ts;
    } else {
      TokensNonEmpty(rels, directed, inverse, n - 1);
      AppendJoin(ts, RelationName(rels[n - 1], inverse));
    }
  }

  /** Appending a name to a join of non-empty tokens is joining one more token. */
  lemma AppendJoin(ts: seq<string>, name: string)
    requires forall x :: 0 <= x < |ts| ==> |ts[x]| > 0
    ensures AppendName(Join(ts), name) == Join(ts + [name])
  {
    JoinSnoc(ts, name);
    JoinNonEmpty(ts);
    if |ts| == 0 {
      assert Join(ts) + name == name;
    }
  }

  /** The print name is the ':'-join of its tokens, when no relation's name is empty. */
  lemma FormatNameIsJoin(rels: seq<Relation>, inverse: bool)
    requires |rels| > 0
    requires NamesNonEmpty(rels, inverse)
    ensures FormatName(rels, inverse) == Join(Tokens(rels, rels[0].varList.directed, inverse, |rels|))
  {
    RenderIsJoin(rels, rels[0].varList.directed, inverse, |rels|);
  }

  /**
   * A directed model with an independent-only relation: the tokens start with
   * "IV" and show every relation but the last independent-only one.
   */
  lemma DirectedShowsIV(rels: seq<Relation>, inverse: bool)
    requires |rels| > 0 && rels[0].varList.directed
    requires exists i :: 0 <= i < |rels| && rels[i].indOnly
    ensures var tokens := Tokens(rels, true, inverse, |rels|);
      |tokens| == |rels| && tokens[0] == "IV"
    ensures forall i :: 0 <= i < |rels| ==>
      (i in Shown(rels, true, |rels|) <==> i != LastIndOnly(rels, |rels|))
  {
    var k := LastIndOnly(rels, |rels|);
    ShownCount(rels, true, |rels|);
    ShownMembers(rels, true, |rels|);
    NamesAreShown(rels, true, inverse, |rels|);
    assert k >= 0;
    assert forall i :: 0 <= i < |rels| ==> (Skipped(rels, true, i) <==> i == k);
    SkippedCountOne(rels, k, |rels|);
    assert PrefixTokens(rels, true) == ["IV"];
  }

  /**
   * An undirected model with two or more singles: the tokens start with "IVI"
   * and show exactly the relations that are not singles.
   */
  lemma UndirectedFoldsSingles(rels: seq<Relation>, inverse: bool)
    requires |rels| > 0 && !rels[0].varList.directed
    requires SingleCount(rels, |rels|) > 1
    ensures Tokens(rels, false, inverse, |rels|)[0] == "IVI"
    ensures forall i :: 0 <= i < |rels| ==> (i in Shown(rels, false, |rels|) <==> !IsSingle(rels[i]))
  {
    ShownMembers(rels, false, |rels|);
    assert PrefixTokens(rels, false) == ["IVI"];
  }

  /**
   * An undirected model with exactly one single: no prefix, and every
   * relation, the single included, is shown under its own name.
   */
  lemma UndirectedLoneSingleShown(rels: seq<Relation>, inverse: bool)
    requires |rels| > 0 && !rels[0].varList.directed
    requires SingleCount(rels, |rels|) == 1
    ensures Prefix(rels, false) == ""
    ensures Shown(rels, false, |rels|) == seq(|rels|, i requires 0 <= i < |rels| => i)
  {
    ShownAll(rels, false, |rels|);
  }

  /** How many of the first `n` relations are skipped. */
  function SkippedCount(rels: seq<Relation>, directed: bool, n: nat): (c: nat)
    requires n <= |rels|
    ensures c <= n
  {
    if n == 0 then 0
    else SkippedCount(rels, directed, n - 1) + (if Skipped(rels, directed, n - 1) then 1 else 0)
  }

  /** Every visited relation is shown or skipped, never both. */
  lemma {:induction false} ShownCount(rels: seq<Relation>, directed: bool, n: nat)
    requires n <= |rels|
    ensures |Shown(rels, directed, n)| + SkippedCount(rels, directed, n) == n
  {
    if n > 0 {
      ShownCount(rels, directed, n - 1);
    }
  }

  /** When exactly position `k` is skipped, one relation among the first `n > k` is skipped. */
  lemma {:induction false} SkippedCountOne(rels: seq<Relation>, k: nat, n: nat)
    requires k < n <= |rels|
    requires forall i :: 0 <= i < |rels| ==> (Skipped(rels, true, i) <==> i == k)
    ensures SkippedCount(rels, true, n) == 1
  {
    if n - 1 > k {
      SkippedCountOne(rels, k, n - 1);
    } else {
      SkippedNone(rels, true, k);
    }
  }

  /** When none of the first `n` relations is skipped, nothing is counted. */
  lemma {:induction false} SkippedNone(rels: seq<Relation>, directed: bool, n: nat)
    requires n <= |rels|
    requires forall i :: 0 <= i < n ==> !Skipped(rels, directed, i)
    ensures SkippedCount(rels, directed, n) == 0
  {
    if n > 0 {
      SkippedNone(rels, directed, n - 1);
    }
  }

  /** When none of the first `n` relations is skipped, all of them are shown, in order. */
  lemma {:induction false} ShownAll(rels: seq<Relation>, directed: bool, n: nat)
    requires n <= |rels|
    requires forall i :: 0 <= i < n ==> !Skipped(rels, directed, i)
    ensures Shown(rels, directed, n) == seq(n, i requires 0 <= i < n => i)
  {
    if n > 0 {
      ShownAll(rels, directed, n - 1);
    }
  }
}

=== FILE: relation_set.dfy ===
/**
 * The ordered relation list a model keeps: sorted insertion by the relation
 * comparator, and absorption of the relations a new relation contains.
 */
module RelationSet {
  import opened Relations

  /** No later relation compares strictly less than an earlier one. */
  ghost predicate Sorted(s: seq<Relation>, cmp: (Relation, Relation) -> int) {
    forall i, j :: 0 <= i < j < |s| ==> !(cmp(s[j], s[i]) < 0)
  }

  /** No relation of the list contains a relation at another position. */
  predicate Antichain(s: seq<Relation>) {
    forall i, j :: 0 <= i < |s| && 0 <= j < |s| && i != j ==> !Contains(s[i], s[j])
  }

  /** Some relation of the list contains `r`. */
  predicate HasContainer(s: seq<Relation>, r: Relation) {
    exists i :: 0 <= i < |s| && Contains(s[i], r)
  }

  /** The first position holding `r`. */
  function IndexOf(s: seq<Relation>, r: Relation): (i: nat)
    requires r in s
    ensures i < |s| && s[i] == r
  {
    if s[0] == r then 0 else 1 + IndexOf(s[1..], r)
  }

  /**
   * Where a new relation goes: before the first relation it compares strictly
   * less than, or at the end when there is none.
   */
  function InsertionPoint(s: seq<Relation>, r: Relation, cmp: (Relation, Relation) -> int): (i: nat)
    ensures i <= |s|
    ensures forall k :: 0 <= k < i ==> !(cmp(r, s[k]) < 0)
    ensures i < |s| ==> cmp(r, s[i]) < 0
  {
    if |s| == 0 || cmp(r, s[0]) < 0 then 0 else 1 + InsertionPoint(s[1..], r, cmp)
  }

  /** The list with `r` placed at its insertion point, everything else shifted up by one. */
  function InsertSorted(s: seq<Relation>, r: Relation, cmp: (Relation, Relation) -> int): (t: seq<Relation>)
    ensures |t| == |s| + 1
    ensures forall x :: x in t <==> x == r || x in s
    ensures t[InsertionPoint(s, r, cmp)] == r
  {
    var i := InsertionPoint(s, r, cmp);
    assert s == s[..i] + s[i..];
    s[..i] + [r] + s[i..]
  }

  /** The relations of `s` that `r` does not contain, in the order they had in `s`. */
  function Absorb(s: seq<Relation>, r: Relation): (t: seq<Relation>)
    ensures |t| + ContainedCount(s, r) == |s|
    ensures forall x :: x in t <==> x in s && !Contains(r, x)
    ensures multiset(t) <= multiset(s)
  {
    if |s| == 0 then []
    else
      assert s == [s[0]] + s[1..];
      if Contains(r, s[0]) then Absorb(s[1..], r)
      else [s[0]] + Absorb(s[1..], r)
  }

  /** How many positions of `s` hold a relation that `r` contains. */
  function ContainedCount(s: seq<Relation>, r: Relation): nat {
    if |s| == 0 then 0
    else (if Contains(r, s[0]) then 1 else 0) + ContainedCount(s[1..], r)
  }

  /** Insertion adds exactly one occurrence of `r` and loses nothing. */
  lemma InsertSortedMultiset(s: seq<Relation>, r: Relation, cmp: (Relation, Relation) -> int)
    ensures multiset(InsertSorted(s, r, cmp)) == multiset(s) + multiset{r}
  {
    var i := InsertionPoint(s, r, cmp);
    assert s == s[..i] + s[i..];
  }

  /** Position by position, the list after insertion. */
  lemma InsertSortedAt(s: seq<Relation>, r: Relation, cmp: (Relation, Relation) -> int, k: nat)
    requires k <= |s|
    ensures var p := InsertionPoint(s, r, cmp);
      InsertSorted(s, r, cmp)[k] == (if k < p then s[k] else if k == p then r else s[k - 1])
  {
  }

  /** Inserting at the insertion point keeps a sorted list sorted. */
  lemma InsertKeepsSorted(s: seq<Relation>, r: Relation, cmp: (Relation, Relation) -> int)
    requires ValidComparator(cmp)
    requires Sorted(s, cmp)
    ensures Sorted(InsertSorted(s, r, cmp), cmp)
    ensures r in InsertSorted(s, r, cmp)
  {
    var p := InsertionPoint(s, r, cmp);
    var t := InsertSorted(s, r, cmp);
    forall a, b | 0 <= a < b < |t|
      ensures !(cmp(t[b], t[a]) < 0)
    {
      InsertSortedAt(s, r, cmp, a);
      InsertSortedAt(s, r, cmp, b);
      if b <= p {
        // both come from s before the insertion point, or b is r itself
      } else if a == p {
        // s[b - 1] is not below s[p], which r is below, so it is not below r
        assert cmp(r, s[p]) < 0;
        assert b - 1 == p || !(cmp(s[b - 1], s[p]) < 0);
      }
    }
  }

  /** A list is sorted exactly when its tail is sorted and nothing in the tail is below its head. */
  lemma SortedCons(x: Relation, rest: seq<Relation>, cmp: (Relation, Relation) -> int)
    ensures Sorted([x] + rest, cmp) <==>
      Sorted(rest, cmp) && (forall y :: y in rest ==> !(cmp(y, x) < 0))
  {
    var s := [x] + rest;
    if Sorted(s, cmp) {
      forall i, j | 0 <= i < j < |rest| ensures !(cmp(rest[j], rest[i]) < 0) {
        assert rest[i] == s[i + 1] && rest[j] == s[j + 1];
      }
      forall y | y in rest ensures !(cmp(y, x) < 0) {
        var k := IndexOf(rest, y);
        assert s[k + 1] == y && s[0] == x;
      }
    }
    if Sorted(rest, cmp) && (forall y :: y in rest ==> !(cmp(y, x) < 0)) {
      forall i, j | 0 <= i < j < |s| ensures !(cmp(s[j], s[i]) < 0) {
        assert s[j] == rest[j - 1] && s[j] in rest;
        if i > 0 {
          assert s[i] == rest[i - 1];
        }
      }
    }
  }

  /** Dropping relations from a sorted list leaves it sorted. */
  lemma {:induction false} AbsorbKeepsSorted(s: seq<Relation>, r: Relation, cmp: (Relation, Relation) -> int)
    requires Sorted(s, cmp)
    ensures Sorted(Absorb(s, r), cmp)
  {
    if |s| > 0 {
      var rest := s[1..];
      assert s == [s[0]] + rest;
      SortedCons(s[0], rest, cmp);
      AbsorbKeepsSorted(rest, r, cmp);
      if !Contains(r, s[0]) {
        SortedCons(s[0], Absorb(rest, r), cmp);
      }
    }
  }

  /** A relation that is below nothing in a sorted list can go at its end. */
  lemma SortedSnoc(s: seq<Relation>, x: Relation, cmp: (Relation, Relation) -> int)
    requires Sorted(s, cmp)
    requires forall k :: 0 <= k < |s| ==> !(cmp(x, s[k]) < 0)
    ensures Sorted(s + [x], cmp)
  {
    var t := s + [x];
    forall i, j | 0 <= i < j < |t| ensures !(cmp(t[j], t[i]) < 0) {
      assert t[i] == s[i];
      if j < |s| {
        assert t[j] == s[j];
      }
    }
  }

  /** An antichain with a relation in front: the tail is an antichain and the head is unrelated to it. */
  lemma AntichainCons(x: Relation, rest: seq<Relation>)
    ensures Antichain([x] + rest) <==>
      && Antichain(rest)
      && (forall y :: y in rest ==> !Contains(x, y) && !Contains(y, x))
  {
    var s := [x] + rest;
    if Antichain(s) {
      forall i, j | 0 <= i < |rest| && 0 <= j < |rest| && i != j ensures !Contains(rest[i], rest[j]) {
        assert s[i + 1] == rest[i] && s[j + 1] == rest[j];
      }
      forall y | y in rest ensures !Contains(x, y) && !Contains(y, x) {
        var k :| 0 <= k < |rest| && rest[k] == y;
        assert s[k + 1] == y && s[0] == x;
        assert !Contains(s[0], s[k + 1]) && !Contains(s[k + 1], s[0]);
      }
    }
    if Antichain(rest) && (forall y :: y in rest ==> !Contains(x, y) && !Contains(y, x)) {
      forall i, j | 0 <= i < |s| && 0 <= j < |s| && i != j ensures !Contains(s[i], s[j]) {
        if i > 0 && j > 0 {
          assert s[i] == rest[i - 1] && s[j] == rest[j - 1];
        } else if i == 0 {
          assert s[j] in rest;
        } else {
          assert s[i] in rest;
        }
      }
    }
  }

  /**
   * Absorption works element by element: absorbing a concatenation absorbs
   * each part, so the surviving relations keep the order they had.
   */
  lemma {:induction false} AbsorbConcat(s1: seq<Relation>, s2: seq<Relation>, r: Relation)
    ensures Absorb(s1 + s2, r) == Absorb(s1, r) + Absorb(s2, r)
  {
    if |s1| > 0 {
      var s := s1 + s2;
      assert s[0] == s1[0] && s[1..] == s1[1..] + s2;
      AbsorbConcat(s1[1..], s2, r);
      assert Absorb(s, r) == if Contains(r, s[0]) then Absorb(s[1..], r) else [s[0]] + Absorb(s[1..], r);
    } else {
      assert s1 + s2 == s2;
    }
  }

  /** Absorption never breaks an antichain. */
  lemma {:induction false} AbsorbKeepsAntichain(s: seq<Relation>, r: Relation)
    requires Antichain(s)
    ensures Antichain(Absorb(s, r))
  {
    if |s| > 0 {
      assert s == [s[0]] + s[1..];
      AntichainCons(s[0], s[1..]);
      AbsorbKeepsAntichain(s[1..], r);
      if !Contains(r, s[0]) {
        AntichainCons(s[0], Absorb(s[1..], r));
      }
    }
  }

  /** Inserting a relation unrelated to every member keeps an antichain. */
  lemma InsertKeepsAntichain(s: seq<Relation>, r: Relation, cmp: (Relation, Relation) -> int)
    requires Antichain(s)
    requires forall y :: y in s ==> !Contains(r, y) && !Contains(y, r)
    ensures Antichain(InsertSorted(s, r, cmp))
  {
    var p := InsertionPoint(s, r, cmp);
    var t := InsertSorted(s, r, cmp);
    forall a, b | 0 <= a < |t| && 0 <= b < |t| && a != b
      ensures !Contains(t[a], t[b])
    {
      InsertSortedAt(s, r, cmp, a);
      InsertSortedAt(s, r, cmp, b);
      var ia := if a < p then a else a - 1;
      var ib := if b < p then b else b - 1;
      if a == p {
        assert t[b] == s[ib] && s[ib] in s;
      } else if b == p {
        assert t[a] == s[ia] && s[ia] in s;
      } else {
        assert t[a] == s[ia] && t[b] == s[ib];
      }
    }
  }
}

=== FILE: relations.dfy ===
/**
 * The collaborators a model is built from: variables with their packed-key
 * layout, variable lists, and relations.  Their own implementation is not part
 * of this model; only what the model reads from them is represented here.
 */
module Relations {
  import opened Wrappers

  /** One word of a packed state key. */
  type KeySegment = bv32

  /** A packed key: one value-or-wildcard per variable, spread over segments. */
  type Key = seq<KeySegment>

  /** A variable and where its value sits inside a packed key. */
  datatype Variable = Variable(cardinality: nat, segment: nat, shift: KeySegment, mask: KeySegment)

  /** The variable universe a relation draws its variables from. */
  datatype VariableList = VariableList(vars: seq<Variable>, directed: bool)

  /**
   * A relation, as seen by a model: the variables it covers (indices into its
   * variable list), whether it is state-based or the independent-only relation
   * of a directed system, its two print names, and its state constraints
   * (None for a missing constraint set, None entries for missing keys).
   */
  datatype Relation = Relation(
    varList: VariableList,
    vars: set<nat>,
    stateBased: bool,
    indOnly: bool,
    name: string,
    inverseName: string,
    constraints: Option<seq<Option<Key>>>)

  /** `a` contains `b` when every variable of `b` is a variable of `a`. */
  predicate Contains(a: Relation, b: Relation) {
    b.vars <= a.vars
  }

  function VariableCount(r: Relation): nat {
    |r.vars|
  }

  /** The relation's own rendering, plain or inverse. */
  function RelationName(r: Relation, inverse: bool): string {
    if inverse then r.inverseName else r.name
  }

  /**
   * The laws the relation comparator must obey: "compares strictly less"
   * is asymmetric and transitive, as for any total preorder.
   */
  ghost predicate ValidComparator(cmp: (Relation, Relation) -> int) {
    && (forall a, b {:trigger cmp(a, b), cmp(b, a)} :: cmp(a, b) < 0 ==> !(cmp(b, a) < 0))
    && (forall a, b, c {:trigger cmp(a, b), cmp(b, c), cmp(a, c)} ::
          cmp(a, b) < 0 && cmp(b, c) < 0 ==> cmp(a, c) < 0)
  }
}

=== FILE: state_space.dfy ===
/**
 * Enumeration of the joint state space of a variable list: a mixed-radix
 * counter whose radices are the variable cardinalities, last variable fastest.
 */
module StateSpace {

  /** Every variable has at least one value. */
  predicate PositiveCards(cards: seq<nat>) {
    forall i :: 0 <= i < |cards| ==> cards[i] >= 1
  }

  /** The number of joint states: the product of the cardinalities. */
  function Product(cards: seq<nat>): nat {
    if |cards| == 0 then 1 else Product(cards[..|cards| - 1]) * cards[|cards| - 1]
  }

  /** The all-zero assignment, the first state. */
  function Zeros(n: nat): (z: seq<nat>)
    ensures |z| == n && forall i :: 0 <= i < n ==> z[i] == 0
  {
    seq(n, _ => 0)
  }

  /** A value assignment that is in range for every variable. */
  predicate InRange(cards: seq<nat>, d: seq<nat>) {
    |d| == |cards| && forall i :: 0 <= i < |d| ==> d[i] < cards[i]
  }

  /** The digits of `k` in the mixed radix `cards`, most significant first. */
  function Digits(cards: seq<nat>, k: nat): (d: seq<nat>)
    requires PositiveCards(cards)
    ensures InRange(cards, d)
    decreases |cards|
  {
    if |cards| == 0 then []
    else
      var n := |cards| - 1;
      Digits(cards[..n], k / cards[n]) + [k % cards[n]]
  }

  /** The number an assignment denotes in the mixed radix `cards`. */
  function Value(cards: seq<nat>, d: seq<nat>): nat
    requires |d| == |cards|
  {
    if |d| == 0 then 0
    else
      var n := |d| - 1;
      Value(cards[..n], d[..n]) * cards[n] + d[n]
  }

  /**
   * The odometer step: bump the last digit, and when it is at its maximum reset
   * it to zero and carry into the digit before it.
   */
  function Successor(cards: seq<nat>, d: seq<nat>): seq<nat>
    requires |d| == |cards|
  {
    if |d| == 0 then []
    else
      var n := |d| - 1;
      if d[n] + 1 < cards[n] then d[..n] + [d[n] + 1]
      else Successor(cards[..n], d[..n]) + [0]
  }

  /** The first `n` states, in enumeration order. */
  function StateTable(cards: seq<nat>, n: nat): (rows: seq<seq<nat>>)
    requires PositiveCards(cards)
    ensures |rows| == n
    ensures forall k :: 0 <= k < n ==> rows[k] == Digits(cards, k)
  {
    seq(n, k requires 0 <= k => Digits(cards, k))
  }

  lemma MulMono(a: nat, b: nat, c: nat)
    ensures a <= b ==> a * c <= b * c
  {
  }

  lemma MulStrictCancel(a: nat, b: nat, c: nat)
    requires a * c < b * c
    ensures a < b
  {
    MulMono(b, a, c);
  }

  /** Quotient and remainder are the only pair that rebuilds `k`. */
  lemma DivModUnique(k: nat, c: nat, q: nat, r: nat)
    requires c > 0 && r < c && k == q * c + r
    ensures k / c == q && k % c == r
  {
    var q0 := k / c;
    assert k == q0 * c + k % c;
    MulMono(q0 + 1, q, c);
    MulMono(q + 1, q0, c);
  }

  lemma {:induction false} ProductPositive(cards: seq<nat>)
    requires PositiveCards(cards)
    ensures Product(cards) >= 1
  {
    if |cards| > 0 {
      ProductPositive(cards[..|cards| - 1]);
    }
  }

  /** Row 0 of the enumeration is the all-zero assignment. */
  lemma {:induction false} DigitsOfZero(cards: seq<nat>)
    requires PositiveCards(cards)
    ensures Digits(cards, 0) == Zeros(|cards|)
  {
    if |cards| > 0 {
      var n := |cards| - 1;
      DigitsOfZero(cards[..n]);
    }
  }

  /** Reading the digits of `k` back gives `k`, for every `k` below the product. */
  lemma {:induction false} ValueOfDigits(cards: seq<nat>, k: nat)
    requires PositiveCards(cards)
    requires k < Product(cards)
    ensures Value(cards, Digits(cards, k)) == k
  {
    if |cards| > 0 {
      var n := |cards| - 1;
      var c := cards[n];
      var init := cards[..n];
      var q := k / c;
      var r := k % c;
      QuotientBound(k, c, Product(init));
      ValueOfDigits(init, q);
      var d := Digits(cards, k);
      assert d == Digits(init, q) + [r];
      assert d[..n] == Digits(init, q) && d[n] == r;
      assert Value(cards, d) == Value(init, d[..n]) * c + d[n];
    }
  }

  /** Below `p * c`, the quotient by `c` is below `p`, and quotient and remainder rebuild the number. */
  lemma QuotientBound(k: nat, c: nat, p: nat)
    requires c > 0 && k < p * c
    ensures k / c < p && k == (k / c) * c + k % c
  {
    MulStrictCancel(k / c, p, c);
  }

  /** Every in-range assignment is the digit vector of its own value, which is below the product. */
  lemma {:induction false} DigitsOfValue(cards: seq<nat>, d: seq<nat>)
    requires PositiveCards(cards)
    requires InRange(cards, d)
    ensures Value(cards, d) < Product(cards)
    ensures Digits(cards, Value(cards, d)) == d
  {
    if |cards| > 0 {
      var n := |cards| - 1;
      var c := cards[n];
      var v' := Value(cards[..n], d[..n]);
      var v := Value(cards, d);
      assert v == v' * c + d[n];
      DigitsOfValue(cards[..n], d[..n]);
      DivModUnique(v, c, v', d[n]);
      MulMono(v' + 1, Product(cards[..n]), c);
      assert v' + 1 <= Product(cards[..n]);
      assert (v' + 1) * c == v' * c + c;
      assert Product(cards) == Product(cards[..n]) * c;
      assert Digits(cards, v) == Digits(cards[..n], v') + [d[n]];
      assert d == d[..n] + [d[n]];
    }
  }

  /** Distinct row numbers below the product give distinct rows. */
  lemma DigitsInjective(cards: seq<nat>, k1: nat, k2: nat)
    requires PositiveCards(cards)
    requires k1 < Product(cards) && k2 < Product(cards)
    requires k1 != k2
    ensures Digits(cards, k1) != Digits(cards, k2)
  {
    ValueOfDigits(cards, k1);
    ValueOfDigits(cards, k2);
  }

  /**
   * The full table lists every in-range assignment exactly once: each one at
   * the row numbered by its value, and no two rows alike.
   */
  lemma StateTableComplete(cards: seq<nat>)
    requires PositiveCards(cards)
    ensures forall d :: InRange(cards, d) ==>
      Value(cards, d) < Product(cards) && StateTable(cards, Product(cards))[Value(cards, d)] == d
    ensures forall k1, k2 :: 0 <= k1 < k2 < Product(cards) ==>
      StateTable(cards, Product(cards))[k1] != StateTable(cards, Product(cards))[k2]
  {
    forall d | InRange(cards, d)
      ensures Value(cards, d) < Product(cards) && StateTable(cards, Product(cards))[Value(cards, d)] == d
    {
      DigitsOfValue(cards, d);
    }
    forall k1, k2 | 0 <= k1 < k2 < Product(cards)
      ensures StateTable(cards, Product(cards))[k1] != StateTable(cards, Product(cards))[k2]
    {
      DigitsInjective(cards, k1, k2);
    }
  }

  /** The state after row `k` is the odometer successor of row `k`. */
  lemma {:induction false} DigitsSuccessor(cards: seq<nat>, k: nat)
    requires PositiveCards(cards)
    requires k + 1 < Product(cards)
    ensures Digits(cards, k + 1) == Successor(cards, Digits(cards, k))
  {
    var n := |cards| - 1;
    var c := cards[n];
    CarryStep(k, c, Product(cards[..n]));
    if k % c + 1 < c {
      SuccessorNoCarry(cards, k);
    } else {
      DigitsSuccessor(cards[..n], k / c);
      SuccessorCarry(cards, k);
    }
  }

  /** Without a carry, the step bumps the last digit of row `k`. */
  lemma SuccessorNoCarry(cards: seq<nat>, k: nat)
    requires PositiveCards(cards) && |cards| > 0
    requires var c := cards[|cards| - 1];
      k % c + 1 < c && (k + 1) / c == k / c && (k + 1) % c == k % c + 1
    ensures Digits(cards, k + 1) == Successor(cards, Digits(cards, k))
  {
    var n := |cards| - 1;
    var d := Digits(cards, k);
    var front := Digits(cards[..n], k / cards[n]);
    assert d == front + [k % cards[n]];
    assert d[..n] == front;
  }

  /** With a carry, the last digit wraps and the leading digits take their own step. */
  lemma SuccessorCarry(cards: seq<nat>, k: nat)
    requires PositiveCards(cards) && |cards| > 0
    requires var n := |cards| - 1; var c := cards[n];
      && k % c + 1 == c && (k + 1) / c == k / c + 1 && (k + 1) % c == 0
      && Digits(cards[..n], k / c + 1) == Successor(cards[..n], Digits(cards[..n], k / c))
    ensures Digits(cards, k + 1) == Successor(cards, Digits(cards, k))
  {
    var n := |cards| - 1;
    var d := Digits(cards, k);
    var front := Digits(cards[..n], k / cards[n]);
    assert d == front + [k % cards[n]];
    assert d[..n] == front;
  }

  /**
   * Counting up by one below `p * c`: without a carry the quotient stays and
   * the remainder goes up; with one the remainder wraps to zero and the
   * quotient, still below `p`, goes up.
   */
  lemma CarryStep(k: nat, c: nat, p: nat)
    requires c > 0 && k + 1 < p * c
    ensures k % c + 1 <= c
    ensures k % c + 1 < c ==> (k + 1) / c == k / c && (k + 1) % c == k % c + 1
    ensures k % c + 1 == c ==> (k + 1) / c == k / c + 1 && (k + 1) % c == 0 && k / c + 1 < p
  {
    var q := k / c;
    var r := k % c;
    assert k == q * c + r;
    if r + 1 < c {
      DivModUnique(k + 1, c, q, r + 1);
    } else {
      assert k + 1 == (q + 1) * c;
      DivModUnique(k + 1, c, q + 1, 0);
      MulStrictCancel(q + 1, p, c);
    }
  }

  /**
   * The successor seen from the digit that is bumped: every digit after `l` is
   * at its maximum and wraps to zero, digit `l` goes up by one, the rest stay.
   */
  lemma {:induction false} SuccessorAt(cards: seq<nat>, d: seq<nat>, l: nat)
    requires |d| == |cards|
    requires l < |d| && d[l] + 1 < cards[l]
    requires forall m :: l < m < |d| ==> d[m] + 1 == cards[m]
    ensures Successor(cards, d) == d[..l] + [d[l] + 1] + Zeros(|d| - 1 - l)
  {
    var n := |d| - 1;
    if l == n {
      assert Zeros(0) == [];
    } else {
      SuccessorAt(cards[..n], d[..n], l);
      assert d[..n][..l] == d[..l];
      assert Zeros(n - 1 - l) + [0] == Zeros(n - l);
    }
  }

  /** Below the last row, some digit of row `k` is not yet at its maximum. */
  lemma {:induction false} NonMaxDigit(cards: seq<nat>, k: nat) returns (j: nat)
    requires PositiveCards(cards)
    requires k + 1 < Product(cards)
    ensures j < |cards| && Digits(cards, k)[j] + 1 < cards[j]
  {
    var n := |cards| - 1;
    var c := cards[n];
    var init := cards[..n];
    var q := k / c;
    CarryStep(k, c, Product(init));
    var d := Digits(cards, k);
    assert d == Digits(init, q) + [k % c];
    if k % c + 1 < c {
      j := n;
    } else {
      j := NonMaxDigit(init, q);
      assert d[j] == Digits(init, q)[j];
    }
  }

  /** Overwriting digit `l` of a row whose digits after `l` are zeros; writing a zero extends the zeros. */
  lemma SetInTail(d: seq<nat>, l: nat, v: nat)
    requires l < |d|
    ensures (d[..l + 1] + Zeros(|d| - 1 - l))[l := v] == d[..l] + [v] + Zeros(|d| - 1 - l)
    ensures v == 0 ==> d[..l] + [v] + Zeros(|d| - 1 - l) == d[..l] + Zeros(|d| - l)
  {
  }

  /**
   * One odometer step: walk from the last variable leftward, resetting
   * variables at their maximum, and bump the first one that is not.  Digit
   * `j` is one that is not at its maximum, so the walk stops.
   */
  method StepState(cards: seq<nat>, prev: seq<nat>, ghost j: nat) returns (next: seq<nat>)
    requires InRange(cards, prev)
    requires j < |prev| && prev[j] + 1 < cards[j]
    ensures next == Successor(cards, prev)
  {
    var n := |cards|;
    next := prev;
    var l := n - 1;
    assert prev[..n] == prev && Zeros(0) == [];
    while prev[l] == cards[l] - 1
      invariant j <= l < n
      invariant next == prev[..l + 1] + Zeros(n - 1 - l)
      invariant forall m :: l < m < n ==> prev[m] + 1 == cards[m]
      decreases l
    {
      SetInTail(prev, l, 0);
      next := next[l := 0];
      l := l - 1;
    }
    SetInTail(prev, l, prev[l] + 1);
    next := next[l := prev[l] + 1];
    SuccessorAt(cards, prev, l);
  }

  /** The odometer step on row `k` of the enumeration gives row `k + 1`. */
  method NextState(cards: seq<nat>, prev: seq<nat>, ghost k: nat) returns (next: seq<nat>)
    requires PositiveCards(cards)
    requires k + 1 < Product(cards)
    requires prev == Digits(cards, k)
    ensures next == Digits(cards, k + 1)
  {
    ghost var j := NonMaxDigit(cards, k);
    next := StepState(cards, prev, j);
    DigitsSuccessor(cards, k);
  }

  /**
   * The enumeration as `Model::makeStateSpaceArray` builds it: start from all zeros and derive
   * each row from the previous one by bumping the last variable, resetting and
   * carrying leftward over variables at their maximum.
   */
  method MakeStateSpaceArray(cards: seq<nat>, statespace: nat) returns (rows: seq<seq<nat>>)
    requires PositiveCards(cards)
    requires statespace <= Product(cards)
    requires statespace == 0 ==> |cards| == 0
    ensures |rows| == statespace
    ensures forall k :: 0 <= k < statespace ==> rows[k] == Digits(cards, k)
    ensures statespace > 0 ==> rows[0] == Zeros(|cards|)
    ensures forall k :: 0 <= k < statespace - 1 ==>
      |rows[k]| == |cards| && rows[k + 1] == Successor(cards, rows[k])
    ensures forall k :: 0 <= k < statespace ==> InRange(cards, rows[k])
    ensures forall k1, k2 :: 0 <= k1 < k2 < statespace ==> rows[k1] != rows[k2]
  {
    var n := |cards|;
    if statespace == 0 {
      return [];
    }
    rows := [Zeros(n)];
    DigitsOfZero(cards);
    var i := 0;
    while i < statespace - 1
      invariant 0 <= i < statespace
      invariant |rows| == i + 1
      invariant rows[0] == Zeros(n)
      invariant forall k :: 0 <= k <= i ==> rows[k] == Digits(cards, k)
    {
      var next := NextState(cards, rows[i], i);
      rows := rows + [next];
      i := i + 1;
    }
    forall k | 0 <= k < statespace - 1
      ensures |rows[k]| == |cards| && rows[k + 1] == Successor(cards, rows[k])
    {
      DigitsSuccessor(cards, k);
    }
    forall k1, k2 | 0 <= k1 < k2 < statespace
      ensures rows[k1] != rows[k2]
    {
      DigitsInjective(cards, k1, k2);
    }
  }

  /** The two-by-three example: six rows, each pair exactly once, last variable fastest. */
  lemma TwoByThree()
    ensures StateTable([2, 3], 6) == [[0, 0], [0, 1], [0, 2], [1, 0], [1, 1], [1, 2]]
  {
    var cards: seq<nat> := [2, 3];
    assert cards[..1] == [2];
    assert (cards[..1])[..0] == [];
    assert Digits(cards, 0) == [0, 0];
    assert Digits(cards, 1) == [0, 1];
    assert Digits(cards, 2) == [0, 2];
    assert Digits(cards, 3) == [1, 0];
    assert Digits(cards, 4) == [1, 1];
    assert Digits(cards, 5) == [1, 2];
  }
}

=== FILE: struct_matrix.dfy ===
/**
 * The structure matrix of a state-based model: one row per state constraint
 * of every relation, in relation order, holding 1 in the columns of the
 * states the constraint matches; and one final all-ones row, the default
 * constraint.  Building it stops at the first relation or key that is
 * missing, which `Model::makeStructMatrix` reports and then terminates on.
 */
module StructMatrix {
  import opened Wrappers
  import opened Relations
  import opened KeyMatch
  import opened StateSpace
  import opened Models

  /** Why the matrix cannot be built: the conditions on which `Model::makeStructMatrix` terminates. */
  datatype Fault =
    | NoRelations
    | MissingConstraints(rel: nat)
    | NoConstraints(rel: nat)
    | MissingKey(rel: nat, key: nat)

  // ---------------------------------------------------------------------------
  // Faults, in the order the building loop meets them
  // ---------------------------------------------------------------------------

  /** The first missing key at or after position `j`, if any. */
  function MissingKeyFrom(cs: seq<Option<Key>>, j: nat): (k: Option<nat>)
    ensures k.None? ==> forall l :: j <= l < |cs| ==> cs[l].Some?
    ensures k.Some? ==> j <= k.value < |cs| && cs[k.value].None? && forall l :: j <= l < k.value ==> cs[l].Some?
    decreases |cs| - j
  {
    if j >= |cs| then None
    else if cs[j].None? then Some(j)
    else MissingKeyFrom(cs, j + 1)
  }

  /** A relation the matrix can be built from: a non-empty constraint set with every key present. */
  predicate Complete(r: Relation) {
    && r.constraints.Some?
    && |r.constraints.value| > 0
    && forall j :: 0 <= j < |r.constraints.value| ==> r.constraints.value[j].Some?
  }

  /** What stops the loop at relation `i`: no constraint set, an empty one, or its first missing key. */
  function FaultOf(r: Relation, i: nat): (f: Option<Fault>)
    ensures f.None? <==> Complete(r)
    ensures f.Some? ==> !f.value.NoRelations? && f.value.rel == i
  {
    match r.constraints
    case None => Some(MissingConstraints(i))
    case Some(cs) =>
      if |cs| == 0 then Some(NoConstraints(i))
      else match MissingKeyFrom(cs, 0)
        case None => None
        case Some(j) => Some(MissingKey(i, j))
  }

  /** The first fault among the first `n` relations. */
  function FirstFault(rels: seq<Relation>, n: nat): (f: Option<Fault>)
    requires n <= |rels|
    ensures f.None? <==> forall i :: 0 <= i < n ==> Complete(rels[i])
    ensures f.Some? ==>
      && !f.value.NoRelations?
      && f.value.rel < n
      && f == FaultOf(rels[f.value.rel], f.value.rel)
      && forall i :: 0 <= i < f.value.rel ==> Complete(rels[i])
  {
    if n == 0 then None
    else
      var before := FirstFault(rels, n - 1);
      if before.Some? then before else FaultOf(rels[n - 1], n - 1)
  }

  // ---------------------------------------------------------------------------
  // The matrix as a function of the relations
  // ---------------------------------------------------------------------------

  /** How many constraints the first pass counts among the first `n` relations: relations without a set count none. */
  function ConstraintCount(rels: seq<Relation>, n: nat): nat
    requires n <= |rels|
  {
    if n == 0 then 0
    else ConstraintCount(rels, n - 1) + (if rels[n - 1].constraints.Some? then |rels[n - 1].constraints.value| else 0)
  }

  /**
   * Every relation's constraints are counted, and the count is zero exactly
   * when no relation among the first `n` holds a constraint.
   */
  lemma {:induction false} ConstraintCountCovers(rels: seq<Relation>, n: nat)
    requires n <= |rels|
    ensures forall i :: 0 <= i < n && rels[i].constraints.Some? ==>
      |rels[i].constraints.value| <= ConstraintCount(rels, n)
    ensures ConstraintCount(rels, n) == 0 <==>
      forall i :: 0 <= i < n && rels[i].constraints.Some? ==> |rels[i].constraints.value| == 0
  {
    if n > 0 {
      ConstraintCountCovers(rels, n - 1);
    }
  }

  /** Every key present in the relation fits the variable list. */
  predicate KeysFit(r: Relation, vars: seq<Variable>) {
    r.constraints.Some? ==>
      forall j :: 0 <= j < |r.constraints.value| && r.constraints.value[j].Some? ==>
        KeyFits(r.constraints.value[j].value, vars)
  }

  /** The enumerated states cover `statespace` rows, one value per variable. */
  predicate StatesFit(states: seq<seq<nat>>, statespace: nat, vars: seq<Variable>) {
    statespace <= |states| && forall i :: 0 <= i < statespace ==> |states[i]| == |vars|
  }

  /** The row of one constraint: 1 for each state the key matches, 0 elsewhere. */
  function MatchRow(key: Key, vars: seq<Variable>, states: seq<seq<nat>>, statespace: nat): (row: seq<int>)
    requires KeyFits(key, vars)
    requires statespace <= |states|
    ensures |row| == statespace
    ensures forall c :: 0 <= c < statespace ==> (row[c] == 1 <==> Matches(states[c], DecodeKey(key, vars)))
    ensures forall c :: 0 <= c < statespace ==> row[c] == 0 || row[c] == 1
  {
    seq(statespace, c requires 0 <= c < statespace => if Matches(states[c], DecodeKey(key, vars)) then 1 else 0)
  }

  /** The rows of one complete relation, one per key, in key order. */
  function KeyRows(r: Relation, vars: seq<Variable>, states: seq<seq<nat>>, statespace: nat): (rows: seq<seq<int>>)
    requires Complete(r) && KeysFit(r, vars)
    requires statespace <= |states|
    ensures |rows| == |r.constraints.value|
  {
    var cs := r.constraints.value;
    seq(|cs|, j requires 0 <= j < |cs| => MatchRow(cs[j].value, vars, states, statespace))
  }

  /** The constraint rows of the first `n` relations, all of them complete. */
  function Rows(rels: seq<Relation>, vars: seq<Variable>, states: seq<seq<nat>>, statespace: nat, n: nat): (rows: seq<seq<int>>)
    requires n <= |rels|
    requires forall i :: 0 <= i < n ==> Complete(rels[i]) && KeysFit(rels[i], vars)
    requires statespace <= |states|
    ensures |rows| == ConstraintCount(rels, n)
  {
    if n == 0 then []
    else Rows(rels, vars, states, statespace, n - 1) + KeyRows(rels[n - 1], vars, states, statespace)
  }

  /** The default constraint: every state. */
  function Ones(statespace: nat): (row: seq<int>)
    ensures |row| == statespace && forall c :: 0 <= c < statespace ==> row[c] == 1
  {
    seq(statespace, _ => 1)
  }

  /** The keys of every relation fit the variable list. */
  predicate AllKeysFit(rels: seq<Relation>, vars: seq<Variable>) {
    forall i :: 0 <= i < |rels| ==> KeysFit(rels[i], vars)
  }

  /**
   * Build the structure matrix of `m` over `statespace` enumerated states.  A
   * model that already has one keeps it.  Otherwise the first missing
   * constraint set, empty set or missing key is a fault; with none, the
   * matrix holds every constraint row in relation order and then the default
   * row, and the model records its row and column counts.
   */
  function MakeStructMatrix(m: Model, statespace: nat, vars: seq<Variable>, states: seq<seq<nat>>): (res: Result<Model, Fault>)
    requires AllKeysFit(m.relations, vars)
    requires statespace <= |states|
    ensures m.structMatrix.Some? ==> res == Success(m)
    ensures m.structMatrix.None? ==>
      (res.Failure? <==> FirstFault(m.relations, |m.relations|).Some?)
    ensures res.Failure? ==> res.error == FirstFault(m.relations, |m.relations|).value
    ensures m.structMatrix.None? && res.Success? ==>
      var m' := res.value;
      && m'.relations == m.relations
      && m'.printName == m.printName && m'.inverseName == m.inverseName
      && m'.fitTable == m.fitTable && m'.attributes == m.attributes
      && m'.structMatrix.Some?
      && |m'.structMatrix.value| == m'.totalConstraints == ConstraintCount(m.relations, |m.relations|) + 1
      && m'.stateSpaceSize == statespace
      && (forall k :: 0 <= k < |m'.structMatrix.value| ==> |m'.structMatrix.value[k]| == statespace)
      && m'.structMatrix.value[m'.totalConstraints - 1] == Ones(statespace)
  {
    if m.structMatrix.Some? then Success(m)
    else
      var fault := FirstFault(m.relations, |m.relations|);
      if fault.Some? then Failure(fault.value)
      else
        var rows := Rows(m.relations, vars, states, statespace, |m.relations|);
        RowsShape(m.relations, vars, states, statespace, |m.relations|);
        var matrix := rows + [Ones(statespace)];
        Success(m.(structMatrix := Some(matrix),
                   totalConstraints := ConstraintCount(m.relations, |m.relations|) + 1,
                   stateSpaceSize := statespace))
  }

  /** Every constraint row spans all the states. */
  lemma {:induction false} RowsShape(rels: seq<Relation>, vars: seq<Variable>, states: seq<seq<nat>>, statespace: nat, n: nat)
    requires n <= |rels|
    requires forall i :: 0 <= i < n ==> Complete(rels[i]) && KeysFit(rels[i], vars)
    requires statespace <= |states|
    ensures forall k :: 0 <= k < |Rows(rels, vars, states, statespace, n)| ==>
      |Rows(rels, vars, states, statespace, n)[k]| == statespace
  {
    if n > 0 {
      var k: nat := n - 1;
      RowsShape(rels, vars, states, statespace, k);
      var before := Rows(rels, vars, states, statespace, k);
      var block := KeyRows(rels[k], vars, states, statespace);
      assert Rows(rels, vars, states, statespace, n) == before + block;
      forall x | 0 <= x < |before + block| ensures |(before + block)[x]| == statespace {
        if x >= |before| {
          assert (before + block)[x] == block[x - |before|];
        } else {
          assert (before + block)[x] == before[x];
        }
      }
    }
  }

  /**
   * Where each constraint lands: key `j` of relation `i` is the row after the
   * rows of the relations before it, and holds the match row of that key.
   */
  lemma {:induction false} RowOfKey(rels: seq<Relation>, vars: seq<Variable>, states: seq<seq<nat>>, statespace: nat,
                                    n: nat, i: nat, j: nat)
    requires n <= |rels|
    requires forall x :: 0 <= x < n ==> Complete(rels[x]) && KeysFit(rels[x], vars)
    requires statespace <= |states|
    requires i < n && rels[i].constraints.Some? && j < |rels[i].constraints.value|
    ensures ConstraintCount(rels, i) + j < ConstraintCount(rels, n)
    ensures Rows(rels, vars, states, statespace, n)[ConstraintCount(rels, i) + j]
      == MatchRow(rels[i].constraints.value[j].value, vars, states, statespace)
    decreases n
  {
    var k: nat := n - 1;
    var before := Rows(rels, vars, states, statespace, k);
    var block := KeyRows(rels[k], vars, states, statespace);
    assert Rows(rels, vars, states, statespace, n) == before + block;
    if i < k {
      RowOfKey(rels, vars, states, statespace, k, i, j);
      assert (before + block)[ConstraintCount(rels, i) + j] == before[ConstraintCount(rels, i) + j];
    } else {
      assert |before| == ConstraintCount(rels, i);
      assert (before + block)[ConstraintCount(rels, i) + j] == block[j];
    }
  }

  /**
   * The meaning of a built matrix: the entry for key `j` of relation `i` and
   * state `c` is 1 exactly when the state matches the key, and the last row
   * accepts every state.
   */
  lemma MatrixEntry(m: Model, statespace: nat, vars: seq<Variable>, states: seq<seq<nat>>, i: nat, j: nat, c: nat)
    requires AllKeysFit(m.relations, vars)
    requires statespace <= |states|
    requires m.structMatrix.None?
    requires MakeStructMatrix(m, statespace, vars, states).Success?
    requires i < |m.relations| && m.relations[i].constraints.Some?
    requires j < |m.relations[i].constraints.value| && c < statespace
    ensures var matrix := MakeStructMatrix(m, statespace, vars, states).value.structMatrix.value;
      var key := m.relations[i].constraints.value[j].value;
      && ConstraintCount(m.relations, i) + j < |matrix| - 1
      && (matrix[ConstraintCount(m.relations, i) + j][c] == 1 <==> Matches(states[c], DecodeKey(key, vars)))
      && matrix[|matrix| - 1][c] == 1
  {
    var rels := m.relations;
    var rows := Rows(rels, vars, states, statespace, |rels|);
    RowOfKey(rels, vars, states, statespace, |rels|, i, j);
    var matrix := rows + [Ones(statespace)];
    assert matrix[ConstraintCount(rels, i) + j] == rows[ConstraintCount(rels, i) + j];
  }

  /** A key that fixes no variable gives an empty row: it matches no state. */
  lemma WildcardKeyRow(key: Key, vars: seq<Variable>, states: seq<seq<nat>>, statespace: nat)
    requires KeyFits(key, vars)
    requires statespace <= |states|
    requires AllWildcard(DecodeKey(key, vars))
    ensures forall c :: 0 <= c < statespace ==> MatchRow(key, vars, states, statespace)[c] == 0
  {
  }

  // ---------------------------------------------------------------------------
  // The building loop
  // ---------------------------------------------------------------------------

  /** A zero row with 1 written at each listed state, as the loop fills a matrix row. */
  method RowFromIndices(indices: seq<nat>, statespace: nat) returns (row: seq<int>)
    requires forall x :: 0 <= x < |indices| ==> indices[x] < statespace
    ensures |row| == statespace
    ensures forall c :: 0 <= c < statespace ==> row[c] == (if c in indices then 1 else 0)
  {
    row := seq(statespace, _ => 0);
    var k := 0;
    while k < |indices|
      invariant 0 <= k <= |indices|
      invariant |row| == statespace
      invariant forall c :: 0 <= c < statespace ==> row[c] == (if c in indices[..k] then 1 else 0)
    {
      row := row[indices[k] := 1];
      assert indices[..k + 1] == indices[..k] + [indices[k]];
      k := k + 1;
    }
    assert indices[..k] == indices;
  }

  /**
   * One relation's turn in the second pass of `Model::makeStructMatrix`: stop at a
   * missing constraint set, an empty one or a missing key, and otherwise fill
   * one row per key from the matching state indices.
   */
  method BuildBlock(r: Relation, i: nat, vars: seq<Variable>, statespace: nat, states: seq<seq<nat>>)
    returns (res: Result<seq<seq<int>>, Fault>)
    requires KeysFit(r, vars)
    requires StatesFit(states, statespace, vars)
    ensures res.Failure? <==> !Complete(r)
    ensures res.Failure? ==> res.error == FaultOf(r, i).value
    ensures res.Success? ==> Complete(r) && res.value == KeyRows(r, vars, states, statespace)
  {
    if r.constraints.None? {
      return Failure(MissingConstraints(i));
    }
    var cs := r.constraints.value;
    if |cs| == 0 {
      return Failure(NoConstraints(i));
    }
    var block: seq<seq<int>> := [];
    var j := 0;
    while j < |cs|
      invariant 0 <= j <= |cs|
      invariant forall l :: 0 <= l < j ==> cs[l].Some?
      invariant |block| == j
      invariant forall l :: 0 <= l < j ==> block[l] == MatchRow(cs[l].value, vars, states, statespace)
    {
      if cs[j].None? {
        MissingKeyFirst(cs, 0, j);
        return Failure(MissingKey(i, j));
      }
      var indices := GetIndicesFromKey(cs[j].value, vars, statespace, states);
      var row := RowFromIndices(indices, statespace);
      assert row == MatchRow(cs[j].value, vars, states, statespace);
      block := block + [row];
      j := j + 1;
    }
    return Success(block);
  }

  /**
   * The second pass of `Model::makeStructMatrix`: visit the relations in order and stop
   * at the first fault; without one, the rows of all relations in order.
   */
  method BuildRows(rels: seq<Relation>, vars: seq<Variable>, statespace: nat, states: seq<seq<nat>>)
    returns (res: Result<seq<seq<int>>, Fault>)
    requires AllKeysFit(rels, vars)
    requires StatesFit(states, statespace, vars)
    ensures FirstFault(rels, |rels|).Some? ==> res == Failure(FirstFault(rels, |rels|).value)
    ensures FirstFault(rels, |rels|).None? ==> res == Success(Rows(rels, vars, states, statespace, |rels|))
  {
    var rows: seq<seq<int>> := [];
    var i := 0;
    while i < |rels|
      invariant 0 <= i <= |rels|
      invariant FirstFault(rels, i).None?
      invariant rows == Rows(rels, vars, states, statespace, i)
    {
      var block := BuildBlock(rels[i], i, vars, statespace, states);
      if block.Failure? {
        FirstFaultStays(rels, i + 1, |rels|);
        return Failure(block.error);
      }
      rows := rows + block.value;
      i := i + 1;
    }
    return Success(rows);
  }

  /** The first missing key is found wherever the search starts before it. */
  lemma {:induction false} MissingKeyFirst(cs: seq<Option<Key>>, from: nat, j: nat)
    requires from <= j < |cs| && cs[j].None?
    requires forall l :: from <= l < j ==> cs[l].Some?
    ensures MissingKeyFrom(cs, from) == Some(j)
    decreases j - from
  {
    if from < j {
      MissingKeyFirst(cs, from + 1, j);
    }
  }

  /** Once a fault has been met, looking at more relations does not change which fault is first. */
  lemma {:induction false} FirstFaultStays(rels: seq<Relation>, n: nat, n': nat)
    requires n <= n' <= |rels|
    requires FirstFault(rels, n).Some?
    ensures FirstFault(rels, n') == FirstFault(rels, n)
    decreases n' - n
  {
    if n < n' {
      FirstFaultStays(rels, n, n' - 1);
    }
  }

  // ---------------------------------------------------------------------------
  // Completing a state-based model
  // ---------------------------------------------------------------------------

  /** The cardinalities of a variable list, in order. */
  function Cards(vars: seq<Variable>): (cards: seq<nat>)
    ensures |cards| == |vars| && forall i :: 0 <= i < |vars| ==> cards[i] == vars[i].cardinality
  {
    seq(|vars|, i requires 0 <= i < |vars| => vars[i].cardinality)
  }

  /** What completing needs of a non-empty model: positive cardinalities and keys that fit the first relation's variables. */
  predicate Completable(m: Model) {
    |m.relations| > 0 ==>
      var vars := m.relations[0].varList.vars;
      PositiveCards(Cards(vars)) && AllKeysFit(m.relations, vars)
  }

  /**
   * Give a state-based model its structure matrix over the full joint state
   * space of its first relation's variable list.  A model with no relations
   * is a fault; a model that already has a matrix is left alone.
   */
  function CompleteSbModel(m: Model): (res: Result<Model, Fault>)
    requires Completable(m)
    ensures |m.relations| == 0 ==> res == Failure(NoRelations)
    ensures |m.relations| > 0 && m.structMatrix.Some? ==> res == Success(m)
    ensures |m.relations| > 0 && m.structMatrix.None? && res.Success? ==>
      && res.value.stateSpaceSize == Product(Cards(m.relations[0].varList.vars))
      && res.value.relations == m.relations
      && res.value.structMatrix.Some?
    ensures |m.relations| > 0 && m.structMatrix.None? ==>
      (res.Failure? <==> exists i :: 0 <= i < |m.relations| && !Complete(m.relations[i]))
  {
    if |m.relations| == 0 then Failure(NoRelations)
    else if m.structMatrix.Some? then Success(m)
    else
      var vars := m.relations[0].varList.vars;
      var cards := Cards(vars);
      var statespace := Product(cards);
      MakeStructMatrix(m, statespace, vars, StateTable(cards, statespace))
  }

  /** Completing twice is completing once. */
  lemma CompleteSbModelIdempotent(m: Model)
    requires Completable(m)
    requires CompleteSbModel(m).Success?
    ensures Completable(CompleteSbModel(m).value)
    ensures CompleteSbModel(CompleteSbModel(m).value) == CompleteSbModel(m)
  {
  }

  /**
   * Over the full enumeration, a key that fixes every variable to an in-range
   * value matches exactly one state: the one whose index the values denote.
   */
  lemma FixedKeyPinsOneState(cards: seq<nat>, key: Key, vars: seq<Variable>, vals: seq<nat>)
    requires PositiveCards(cards) && |cards| == |vars| > 0
    requires KeyFits(key, vars)
    requires InRange(cards, vals)
    requires forall j :: 0 <= j < |vars| ==> DecodeKey(key, vars)[j] == Some(vals[j])
    ensures var states := StateTable(cards, Product(cards));
      forall c :: 0 <= c < Product(cards) ==>
        (MatchRow(key, vars, states, Product(cards))[c] == 1 <==> c == Value(cards, vals))
  {
    var n := Product(cards);
    var states := StateTable(cards, n);
    var p := DecodeKey(key, vars);
    DigitsOfValue(cards, vals);
    forall c | 0 <= c < n
      ensures Matches(states[c], p) <==> c == Value(cards, vals)
    {
      var d := Digits(cards, c);
      assert states[c] == d;
      assert p[0].Some?;
      if Matches(d, p) {
        assert d == vals by {
          forall j | 0 <= j < |d| ensures d[j] == vals[j] {
            assert p[j].Some?;
          }
        }
        ValueOfDigits(cards, c);
      }
    }
  }
}

=== FILE: wrappers.dfy ===
/** Failure-carrying return types used where the C++ `Model` returns NULL or halts. */
module Wrappers {

  /** A value that may be absent; stands in for a possibly-NULL pointer. */
  datatype Option<+T> = None | Some(value: T)

  /** Either a computed value or the fatal error that stopped the computation. */
  datatype Result<+R, +E> = Success(value: R) | Failure(error: E)
}
